=== FILE: README.md ===
# reactor, modelled in Dafny

`reactor` is a small Python event framework. Components are kept in an
ordered list, and the reactor broadcasts each emitted event to them in
order. Distributors forward events to their own sub-components. An
injection dispatcher answers lookups of registered injectables. A
*returning event* collects replies from the components that handle it.
Each reply is a future computed on a thread pool.

This project models the deterministic core of that machinery and proves
what it promises:

- **Futures.** A reply future is a snapshot `Pending | Running |
  Done(v) | Failed(e) | Cancelled`. The model follows the
  `concurrent.futures` rules for `cancel()`, `exception()` and
  `result()`.
- **Returning events.** `ParallelReturningEvent` and
  `SequentialReturningEvent` keep a reply registry, modelled as an ordered
  sequence of (component, future) entries with distinct components. Each
  registry loop is a method proved equal to a specification function. The
  properties the source promises are lemmas over those functions:
  - failure aggregation;
  - stopping at the first unfinished reply;
  - the backward scans of `previous_reply` and `previous_entry`;
  - the newest-first scan of `get_resolved_reply`;
  - the multiply-the-previous-reply chain of the sequential test.
- **Completion flags.** `Event` and `EmittedFlagBlockingEvent` are
  classes. `EmittedFlagBlockingEvent`'s one-shot flag is a field.
- **Dispatch.** Component containers, distributors, the transformation
  distributor, the newer `SimpleReactor` with its three transformation
  modes, and the older `SimpleReactor` are all modelled. Each emit yields a
  delivery trace: a `Deliver(component, event)` for every `on_event` call,
  then a `Complete(event)` for the `on_emit_completed` call. Each emit also
  ends in one of three ways: it returns, it raises, or it blocks forever.
- **Injection.** The injection dispatcher filters its injectables by a
  type or name query. `InjectionEvent.await_injections` is modelled, and so
  is the older reactor's `get_injectable` mode switch.
- **Access rules.** `AccessConfig` validates rule strings such as
  `'!r !w !d'` against the grammar `(!?(r|w|d) +)*!?(r|w|d)`, using an
  exact recognizer that is proved sound and complete. The model also
  covers the constructor loop, the deny-overrides name check
  `_check_name`, the alias lookup `_get_alias`, and the allow/deny
  decisions of `AccessView`'s get, set and delete.

Blocking waits (`wait_for_reply`, `Future.result()` on an unfinished
future) become preconditions that every entry is finished. Components,
events and injectables are opaque identifiers. A user-supplied regular
expression is an opaque id, and a matcher function stands for its
`fullmatch`.

Files: `outcomes.dfy` (raised exceptions and results), `futures.dfy`,
`events.dfy`, `returning_events.dfy`, `returning_event_lemmas.dfy`,
`components.dfy`, `transformation.dfy`, `injection.dfy`,
`legacy_reactor.dfy` (the older reactor in `reactor/reactor.py`),
`simple_reactor.dfy` and `access_view.dfy`.

## Where the model follows the code rather than the intended design

- `Future.exception()` raises `CancelledError` on a cancelled future. A
  cancelled reply therefore makes `is_replied` and `get_reply` raise
  `CancelledError`. It is not skipped.
- `cancel()` has no effect on a running future. The sequential `reply`
  therefore never changes the previous entry.
- In transformation mode 1, the transform event reaches only the
  transformation distributor. Its completion flag is never set, so the
  following `wait_for_reply` blocks forever. The model's emit ends in
  `Blocked`.
- In mode 2 with no uncancelled reply, `previous_reply(None)` returns
  `None`. `None` is then broadcast to every component, and
  `None.on_emit_completed()` raises `AttributeError`.
- The injection dispatcher never replies to an injection event. If no
  reply arrives, `await_injections` raises `TypeError`, because `reduce`
  is called on an empty sequence.
- Every access rule writes only `readability`, and the last of `r`, `w`
  and `d` in the rule decides the stored value. So `'!r w'` leaves a name
  readable, and nothing can ever be set or deleted through a view.
- Only the two-argument `SimpleReactor.emit` exists. The second `def`
  replaces the first.

## Model

| member | source | states |
|---|---|---|
| Futures.Task.Cancel | reactor/returningevent.py:203-204 | cancelling a running future leaves it unchanged; any change yields a finished state |
| Futures.Task.Exception | reactor/returningevent.py:48-50 | on a finished future, `exception()` raises exactly when the future was cancelled, and returns no exception exactly when it completed normally, and a failed future returns its own error |
| Futures.Task.Result | reactor/returningevent.py:184-187 | on a finished future, `result()` succeeds exactly when it completed normally; a failed future re-raises its own error |
| Events.Event.constructor | reactor/event.py:4-6 | an event stores the component it came from |
| Events.Event.OnEmitCompleted | reactor/event.py:8-9 | completing a plain event changes nothing (the method may modify nothing) |
| Events.EmittedFlag.constructor | reactor/event.py:11-15 | a new flag-carrying event stores its source and has its completion flag unset |
| Events.EmittedFlag.OnEmitCompleted | reactor/event.py:17-22 | after `on_emit_completed`, `is_emit_completed()` is true; calling it again changes nothing |
| ReturningEvents.IndexOf | reactor/returningevent.py:183 | the position of a registered component is its first occurrence |
| ReturningEvents.ScanDown | reactor/returningevent.py:184-187 | a backward scan finds the highest accepted index in range, with every later index rejected, or reports that none is accepted |
| ReturningEvents.StartIndex | reactor/returningevent.py:182-183 | the start of the scan lies in -1 .. len(replies) - 1 |
| ReturningEvents.StartIndexOfRegistered | reactor/returningevent.py:182-183 | a registered component's scan starts at the entry just before its own |
| ReturningEvents.CheckReplied | reactor/returningevent.py:40-60 | the `is_replied` loop computes the aggregation rule of `IsRepliedSpec` |
| ReturningEvents.CollectReplies | reactor/returningevent.py:62-82 | the `get_reply` loop computes `GetReplySpec`: it stops at the first unfinished entry, else raises the aggregate, else returns the results |
| ReturningEvents.FirstHaltStops | reactor/returningevent.py:70-77 | once a prefix contains an unfinished or cancelled entry, later entries do not change where `get_reply` stops |
| ReturningEvents.PreviousReplyScan | reactor/returningevent.py:174-188 | the `previous_reply` loop computes `PreviousReplySpec` |
| ReturningEvents.PreviousEntryScan | reactor/returningevent.py:158-172 | the `previous_entry` loop returns `None` as its first element, and as its second the `PreviousEntrySpec` result, whose scan stops at index 1 |
| ReturningEvents.ResolvedReplyScan | reactor/returningevent.py:145-156 | the `get_resolved_reply` loop computes `ResolvedReplySpec` |
| ReturningEvents.ParallelReturningEvent.constructor | reactor/returningevent.py:28-34 | a new parallel event has an empty registry and an unset flag |
| ReturningEvents.ParallelReturningEvent.OnEmitCompleted | reactor/event.py:17-19 | completing the emit sets the flag and leaves the registry alone |
| ReturningEvents.ParallelReturningEvent.Reply | reactor/returningevent.py:84-88 | a duplicate component raises `RuntimeError` and leaves the registry unchanged; otherwise exactly one entry is appended |
| ReturningEvents.ParallelReturningEvent.IsReplied | reactor/returningevent.py:40-60 | `is_replied` on the current registry and flag |
| ReturningEvents.ParallelReturningEvent.GetReply | reactor/returningevent.py:62-82 | `get_reply` on the current registry |
| ReturningEvents.SequentialReturningEvent.constructor | reactor/returningevent.py:112-116 | a new sequential event has an empty registry and an unset flag |
| ReturningEvents.SequentialReturningEvent.OnEmitCompleted | reactor/event.py:17-19 | completing the emit sets the flag and leaves the registry alone |
| ReturningEvents.SequentialReturningEvent.Reply | reactor/returningevent.py:190-205 | checked in order: a non-future raises `TypeError`, a set flag raises `RuntimeError`, a duplicate raises `RuntimeError`, each leaving the registry unchanged; otherwise the entry is appended and nothing else changes |
| ReturningEvents.SequentialReturningEvent.IsReplied | reactor/returningevent.py:123-143 | `is_replied` on the current registry and flag |
| ReturningEvents.SequentialReturningEvent.GetResolvedReply | reactor/returningevent.py:145-156 | `get_resolved_reply` on the current registry |
| ReturningEvents.SequentialReturningEvent.PreviousEntry | reactor/returningevent.py:158-172 | `previous_entry` on the current registry |
| ReturningEvents.SequentialReturningEvent.PreviousReply | reactor/returningevent.py:174-188 | `previous_reply` on the current registry, whose entry to read is finished; a registered caller gets the newest uncancelled entry before its own, or the default |
| ReturningEventLemmas.FailuresExact | reactor/returningevent.py:45-53 | an error is in the aggregated list exactly when some entry failed with it |
| ReturningEventLemmas.NoFailuresIff | reactor/returningevent.py:55-56 | the aggregated list is empty exactly when no entry failed |
| ReturningEventLemmas.SingleFailure | reactor/returningevent.py:45-56 | a single failed entry gives an aggregate holding exactly its error |
| ReturningEventLemmas.IsRepliedIff | reactor/returningevent.py:40-60 | `is_replied` is true exactly when the flag is set and every entry is done; whether it raises does not depend on the flag |
| ReturningEventLemmas.AggregateCollectsEveryFailure | reactor/returningevent.py:45-56 | a raised aggregate is non-empty, occurs only with no cancelled entry, and holds the error of every failed entry |
| ReturningEventLemmas.AllResults | reactor/returningevent.py:62-82 | when every entry completed normally, `get_reply` neither stops nor fails, and returns every (component, result) pair in registry order |
| ReturningEventLemmas.RepliedThenGetReply | tests/test_parallel_returning.py:36 | once `is_replied` is true, `get_reply` returns every component with its result, in reply order |
| ReturningEventLemmas.NoHaltInPrefix | reactor/returningevent.py:70-77 | a prefix of finished, uncancelled entries does not stop `get_reply` |
| ReturningEventLemmas.GetReplyStopsAtFirstHalt | reactor/returningevent.py:70-77 | `get_reply` raises for the first unfinished or cancelled entry: `RuntimeError` if unfinished, `CancelledError` if cancelled |
| ReturningEventLemmas.FirstReplierGetsDefault | reactor/returningevent.py:174-188 | the first registered component always receives the default from `previous_reply` |
| ReturningEventLemmas.UnregisteredScansFromEnd | reactor/returningevent.py:182-187 | for an unregistered component, or the newly appended replier, `previous_reply` scans the same entries as `previous_reply(None)` |
| ReturningEventLemmas.ScanDownPrefix | reactor/returningevent.py:183-187 | appending entries does not change a backward scan that starts inside the old registry |
| ReturningEventLemmas.PreviousEntryNeverSeesFirst | reactor/returningevent.py:164-172 | with two entries, `previous_entry` of the second gives the default while `previous_reply` of the second gives the first's result |
| ReturningEventLemmas.PreviousEntrySkipsIndexZero | reactor/returningevent.py:168 | `previous_entry` never returns the entry at index 0 |
| ReturningEventLemmas.ResolvedIsNewest | reactor/returningevent.py:150-156 | a resolved reply is the newest completed entry, and every later entry is unfinished or cancelled |
| ReturningEventLemmas.NothingResolvedGivesDefault | reactor/returningevent.py:156 | with no finished uncancelled entry, `get_resolved_reply` returns the default |
| ReturningEventLemmas.MultiplierChain | tests/test_sequential_returning.py:18-42 | the chain of test repliers registers each component once, and all of them finish |
| ReturningEventLemmas.PreviousOfNewest | reactor/returningevent.py:183-187 | a replier appended after finished entries gets the newest one's result from `previous_reply` |
| ReturningEventLemmas.ChainHoldsRunningProduct | tests/test_sequential_returning.py:18-42 | the last replier's result is the product of all the factors |
| ReturningEventLemmas.ChainEndsWithProduct | tests/test_sequential_returning.py:18-42 | `previous_reply(None)` after the chain is the product of all the factors |
| ReturningEventLemmas.MultiplyingExample | tests/test_sequential_returning.py:18-42 | factors 2, 3, 4, 5 give 120 |
| Components.DeliveriesExact | reactor/reactor.py:76-78 | a broadcast delivers to every component once, in list order |
| Components.Broadcast | reactor/component.py:39-41 | the broadcast loop produces exactly those deliveries |
| Components.RunPass | reactor/reactor.py:76-79 | the emit loop produces the deliveries and then the completion call |
| Components.PassCompletesLast | reactor/reactor.py:76-79 | an emit delivers the event to every component in order, and only then completes it |
| Components.ComponentContainer.constructor | reactor/component.py:13-14 | the container holds the given list |
| Components.ComponentContainer.AddComponent | reactor/component.py:16-20 | `add_component` appends at the end and keeps earlier entries, so `components_iter`, which reads the list, yields the components in insertion order |
| Components.MustHandleEvent | reactor/component.py:28-30 | the base distributor's predicate raises `NotImplementedError`, and only the base one does |
| Components.ForwardedIff | reactor/component.py:35-50 | a mapped distributor forwards exactly when the event's key for it equals its key, and then to every sub-component once, in order |
| Components.Distributor.constructor | reactor/component.py:24-26 | a new distributor has no sub-components |
| Components.Distributor.AddComponent | reactor/component.py:32-33 | appends a sub-component at the end |
| Components.Distributor.OnEvent | reactor/component.py:35-41 | `on_event` forwards according to `must_handle_event` |
| Transformation.TransformationDistributor.constructor | reactor/transformation.py:11-14 | the default injectable name is `'factory_distributor'`, and there are no sub-components |
| Transformation.TransformationDistributor.AddComponent | reactor/component.py:32-33 | appends a sub-component at the end |
| Transformation.TransformationDistributor.OnEvent | reactor/transformation.py:16-17 | a transform event goes to every sub-component once, in order; any other event goes nowhere |
| Injection.BaseNamedInjectable.constructor | reactor/injection.py:15-21 | `get_injectable_name` returns the name given at construction |
| Injection.InjectionDispatcher.constructor | reactor/injection.py:33-36 | a new dispatcher has no injectables |
| Injection.InjectionDispatcher.AddInjectable | reactor/injection.py:38-39 | set insertion: adding an injectable already present changes nothing |
| Injection.InjectionDispatcher.OnEvent | reactor/injection.py:44-56 | a non-injection event is ignored; another query type raises `TypeError`; a type or name query matches exactly the injectables of that type or name; nothing is replied |
| Injection.ConcatMembers | reactor/injection.py:28-30 | the concatenated injections hold exactly the elements of the reply values |
| Injection.AwaitInjectionsCollects | reactor/injection.py:28-30 | with finished replies, `await_injections` returns exactly the elements of every reply value |
| Injection.NoRepliesRaisesTypeError | reactor/injection.py:28-30 | with no replies, `await_injections` raises `TypeError` |
| LegacyReactor.DefaultChooser | reactor/reactor.py:30 | the default chooser succeeds exactly on a non-empty list |
| LegacyReactor.GetInjectableModes | reactor/reactor.py:30-43 | a mode outside 0..3 raises `ValueError`; the other modes hand back the value the AWAIT mode computes |
| LegacyReactor.AwaitTakesFirstInjection | reactor/reactor.py:30-35 | AWAIT mode with the default chooser returns the first injection of the first reply |
| LegacyReactor.ConcatStartsWithFirst | reactor/injection.py:30 | the concatenation starts with the first reply's first element |
| LegacyReactor.AwaitWithoutRepliesRaises | reactor/reactor.py:30-35 | AWAIT mode with no replies raises `TypeError` |
| LegacyReactor.SimpleReactor.constructor | reactor/reactor.py:52-59 | components start as [injection dispatcher, factory distributor], and no injectable is registered |
| LegacyReactor.SimpleReactor.AddComponent | reactor/reactor.py:61-62 | appends at the end |
| LegacyReactor.SimpleReactor.Emit | reactor/reactor.py:76-79 | the event goes to every component once, in order, and is then completed; emitting `None` raises `AttributeError` after the broadcast |
| Reactors.EmitRejectsUnknownMode | reactor/simplereactor.py:69-70 | a mode outside 0..2 raises `ValueError` before any delivery |
| Reactors.EmitWithoutTransformation | reactor/simplereactor.py:67-74 | mode 0 delivers the event to every component in order and then completes it |
| Reactors.EmitThroughDistributorOnlyBlocks | reactor/simplereactor.py:62-66 | mode 1 gives the transform event only to the transformation distributor and then blocks |
| Reactors.EmitBroadcastsNewestTransform | reactor/simplereactor.py:53-61 | mode 2 broadcasts the transform event, then broadcasts and completes the newest uncancelled reply |
| Reactors.EmitWithoutTransformRepliesBroadcastsNone | reactor/simplereactor.py:53-61 | mode 2 with no uncancelled reply broadcasts `None` and raises `AttributeError` |
| Reactors.SimpleReactor.constructor | reactor/simplereactor.py:16-29 | components are [injection dispatcher, factory distributor, transformation distributor], and all three are registered as injectables |
| Reactors.SimpleReactor.AddComponent | reactor/simplereactor.py:31-32 | appends at the end |
| Reactors.SimpleReactor.Emit | reactor/simplereactor.py:52-74 | the two-argument `emit` behaves as `EmitSpec`, whose mode cases are the lemmas above |
| AccessViews.ParseRuleSound | reactor/data/accessview.py:7 | every string the recognizer accepts is spelled by well-formed atoms and space runs |
| AccessViews.ParseRuleComplete | reactor/data/accessview.py:7 | every well-formed spelling is accepted, and it parses back to its own atoms and gaps |
| AccessViews.ValidRuleIff | reactor/data/accessview.py:7 | a rule is valid exactly when it is one or more atoms (an optional `!` then one of r, w, d) separated by runs of spaces |
| AccessViews.AtomIsRule | reactor/data/accessview.py:7 | a single atom, denied or not, is a valid rule |
| AccessViews.AtomThenRule | reactor/data/accessview.py:7 | an atom, one space and a valid rule form a valid rule |
| AccessViews.PutLookup | reactor/data/accessview.py:57-62 | a dictionary store changes only the stored key |
| AccessViews.NewAccessConfig | reactor/data/accessview.py:27-62 | the constructor loop builds what `AccessConfigOf` describes, or raises its error |
| AccessViews.BuildStops | reactor/data/accessview.py:33-55 | the first raising entry decides the constructor's error |
| AccessViews.OnlyReadabilityIsWritten | reactor/data/accessview.py:28-30 | `writability` and `deletability` stay empty whatever the input |
| AccessViews.AliasesArePatternKeyed | reactor/data/accessview.py:34-38 | no plain name ever receives an alias |
| AccessViews.ValidRuleNamesAnOp | reactor/data/accessview.py:7 | a valid rule names at least one of r, w, d |
| AccessViews.ApplyRuleIsPut | reactor/data/accessview.py:57-62 | the three tests write one entry, and the last letter present decides it |
| AccessViews.ApplyRuleDecides | reactor/data/accessview.py:57-62 | after a rule, its key reads as the rule decides, and every other key is unchanged |
| AccessViews.AppendRule | reactor/data/accessview.py:45-62 | an added rule string raises exactly when it names a letter twice; otherwise only its key's entry changes |
| AccessViews.AppendValidRule | reactor/data/accessview.py:45-62 | an admissible rule string stores its decision and becomes the current rule |
| AccessViews.TupleUnderNameRefused | reactor/data/accessview.py:34-36 | a tuple under a string key raises `ValueError` |
| AccessViews.InvalidRuleRefused | reactor/data/accessview.py:34-46 | a rule string, or a tuple's rule under a pattern key, that does not match the grammar raises `ValueError` |
| AccessViews.AliasUnderPattern | reactor/data/accessview.py:34-43 | an (alias, rule) tuple under a pattern key stores the alias and applies the rule to that key's readability |
| AccessViews.OtherValueReusesRule | reactor/data/accessview.py:33-62 | a value that is neither string nor tuple applies the previous rule under its own key (under the same key it changes nothing), and raises `UnboundLocalError` on the first entry |
| AccessViews.ApplyRuleIdempotent | reactor/data/accessview.py:57-62 | applying the same rule twice to a key is the same as applying it once |
| AccessViews.CheckName | reactor/data/accessview.py:65-73 | `_check_name` is true exactly when some matching key allows and no matching key denies |
| AccessViews.BuiltAliasIsName | reactor/data/accessview.py:75-79 | in every built configuration, `_get_alias` returns the name itself |
| AccessViews.BuiltViewsForbidChanges | reactor/data/accessview.py:101-114 | no name may be set or deleted with a built configuration |
| AccessViews.SourceObject.constructor | reactor/data/accessview.py:82-84 | the wrapped object holds the given attributes |
| AccessViews.AccessView.constructor | reactor/data/accessview.py:82-84 | a view stores its source and configuration |
| AccessViews.AccessView.GetAttribute | reactor/data/accessview.py:86-94 | a read is allowed exactly when `_check_name` on readability holds; it then reads the aliased attribute, and otherwise raises `AttributeError` |
| AccessViews.AccessView.SetAttribute | reactor/data/accessview.py:96-104 | a write is allowed exactly when `_check_name` on writability holds; it then stores under the alias, and otherwise raises and changes nothing |
| AccessViews.AccessView.DeleteAttribute | reactor/data/accessview.py:106-114 | a delete removes the aliased attribute exactly when allowed and present, and otherwise raises and changes nothing |
| AccessViews.TwoRules | reactor/data/accessview.py:33-62 | two admissible rules under distinct keys build exactly their two decisions, in order |
| AccessViews.AllPublicValid | reactor/data/accessview.py:5-7 | `'r w d'` is a valid rule |
| AccessViews.AllPublicRule | reactor/data/accessview.py:5 | `'r w d'` is admissible and grants access |
| AccessViews.HiddenValid | reactor/data/accessview.py:4-7 | `'!r !w !d'` is a valid rule |
| AccessViews.HiddenRule | reactor/data/accessview.py:4 | `'!r !w !d'` is admissible and denies access |
| AccessViews.UnderscorePrivateBuilds | reactor/data/accessview.py:4 | `AccessConfig(UNDERSCORE_PRIVATE)` builds a single denying readability entry for its pattern |
| AccessViews.UnderscorePrivateHides | reactor/data/accessview.py:4 | a name the `UNDERSCORE_PRIVATE` pattern matches cannot be read |
| AccessViews.OwnerHiddenBuilds | tests/test_access_view.py:15-18 | the test configuration readably allows `.*` and denies `owner` |
| AccessViews.OwnerHiddenDecisions | tests/test_access_view.py:22-25 | with those rules, and a `.*` matcher that fully matches the names `bread` and `owner`, `bread` can be read and `owner` cannot |
| AccessViews.OwnerHiddenExample | tests/test_access_view.py:15-25 | `{**ALL_PUBLIC, 'owner': '!r !w !d'}` allows reading `bread` and refuses `owner`, given only that `.*` fully matches those two names |
| AccessViews.DenyThenWriteValid | reactor/data/accessview.py:7 | `'!r w'` is a valid rule |
| AccessViews.DenyThenWriteRule | reactor/data/accessview.py:57-60 | `'!r w'` is admissible and grants access |
| AccessViews.LaterLetterOverridesDeny | reactor/data/accessview.py:57-60 | under `'!r w'` the name stays readable, because the `w` test overwrites the `r` test |

## Left out

- Concurrency is not modelled: the thread pool, `run_async`, locks, and the blocking waits (`wait_for_reply`, `Future.result()` on an unfinished future). A reply future is a snapshot of its state, and a wait becomes a precondition that the entries it reads are finished.
- The attribute-interception proxies `reactor/view.py`, `reactor/data/view.py`, `reactor/data/futureview.py` and `reactor/data/reactorview.py` are not modelled. They rely on reflective `__getattribute__` tricks, and two of them import a module that does not exist.
- `reactor/data/value.py`, `reactor/fabrication.py`, `reactor/abstractreactor.py`, `reactor/serialization/serializer.py` and `reactor/draftchecks/*` are not part of this model. They are listener callbacks into foreign code, factories calling methods no event defines, a duplicate of `AbstractReactor`, empty stubs and stale demos.
- `Component.on_event` has no effect. It appears only as the absence of any delivery beyond the trace entry.
- The first `ComponentContainer.__init__` is not modelled, because the second definition replaces it.
- Python's `super()` chains are not modelled, because the calls resolve to initialisers missing arguments. The fields they were meant to set (component list, injectable set, name) are set directly.
- Handler exceptions are not modelled: every component's `on_event` returns normally. Nested distributor deliveries are not expanded into the trace; a delivery to a distributor is one trace entry.
- AccessViews.SourceObject: the wrapped object is only a map of its instance attributes. `getattr`, `setattr` and `delattr` in Python also reach class attributes, methods, properties, descriptors and a custom `__getattr__`; these are not modelled.
- The regex engine is not modelled. User patterns, including `UNDERSCORE_PRIVATE`'s, are opaque ids with a caller-supplied matcher. Only the fixed validation grammar is modelled exactly.
- Tuple values other than (alias, rule) pairs of strings, and keys that are neither strings nor patterns, are not modelled.
- `AbstractReactor.inject` is not modelled. Its decorator calls `self.inject` once, throws away the closure it gets back, and returns `None`, so the decorated function is replaced by `None`.
- `isinstance` checks on user types are not modelled directly. Each injectable carries the set of type tags it is an instance of.
- The injection dispatcher's own injectable name, and the injectable name of the three reactor components, are not modelled. The reactor's constructor receives those injectables as values.
- Reactors.SimpleReactor.Emit: in mode 2 the transform event's replies are supplied as a parameter (the registry as it stands when the broadcast finishes), because the components that would produce them are opaque.
- LegacyReactor.GetInjectable: the registry of the emitted `InjectionEvent` is a parameter, and `self.emit` is taken to return normally. In the code no class reaches a working `emit`: `AbstractReactor.emit` and `run_async` in reactor/reactor.py raise `NotImplementedError`, nothing in that file subclasses `AbstractReactor`, and its `SimpleReactor` has no base class. The one concrete subclass, reactor/simplereactor.py's `SimpleReactor`, inherits `get_injectable` from reactor/abstractreactor.py, whose one-argument `self.emit(e)` meets the surviving two-argument `emit` and raises `TypeError`. The model states what `get_injectable` would compute if `emit` delivered the event.
- LegacyReactor.GetInjectableModes: modes 1 to 3 wrap the eventual injectable in a proxy. The model keeps only which kind of handle is returned, and the value it would resolve to.

=== FILE: access_view.dfy ===
/** Access-rule configuration and decisions (reactor/data/accessview.py).
    Keys of an access dictionary are attribute names or compiled patterns;
    a pattern is an opaque id whose `fullmatch` is given by a matcher. Rule
    strings are checked against the fixed grammar
    `(!?(r|w|d) +)*!?(r|w|d)`, which is modelled exactly. */
module AccessViews {
  import opened Outcomes

  // ---------------------------------------------------------------------
  // The rule-string grammar.
  // ---------------------------------------------------------------------

  predicate IsOp(c: char) {
    c == 'r' || c == 'w' || c == 'd'
  }

  /** One `!?(r|w|d)` of a rule string. */
  datatype Atom = Atom(deny: bool, op: char)

  function AtomText(a: Atom): string {
    (if a.deny then "!" else "") + [a.op]
  }

  function Spaces(n: nat): (s: string)
    ensures |s| == n && forall i :: 0 <= i < n ==> s[i] == ' '
  {
    if n == 0 then [] else [' '] + Spaces(n - 1)
  }

  /** The atoms of a rule and the widths of the space runs between them. */
  ghost predicate WellFormed(atoms: seq<Atom>, gaps: seq<nat>) {
    && |atoms| == |gaps| + 1
    && (forall i :: 0 <= i < |atoms| ==> IsOp(atoms[i].op))
    && (forall i :: 0 <= i < |gaps| ==> gaps[i] >= 1)
  }

  /** The string a sequence of atoms and gaps spells. */
  function Render(atoms: seq<Atom>, gaps: seq<nat>): string
    requires |atoms| == |gaps| + 1
    decreases |gaps|
  {
    if gaps == [] then AtomText(atoms[0])
    else AtomText(atoms[0]) + Spaces(gaps[0]) + Render(atoms[1..], gaps[1..])
  }

  /** An atom at the start of `s`, with its length. */
  function ParseAtom(s: string): Option<(Atom, nat)>
  {
    if |s| >= 1 && IsOp(s[0]) then Some((Atom(false, s[0]), 1))
    else if |s| >= 2 && s[0] == '!' && IsOp(s[1]) then Some((Atom(true, s[1]), 2))
    else None
  }

  /** The number of spaces `s` starts with. */
  function LeadingSpaces(s: string): (n: nat)
    ensures n <= |s|
  {
    if s != [] && s[0] == ' ' then 1 + LeadingSpaces(s[1..]) else 0
  }

  /** The recognizer: an atom, then either the end or a run of spaces and
      another rule. */
  function ParseRule(s: string): Option<(seq<Atom>, seq<nat>)>
    decreases |s|
  {
    var head := ParseAtom(s);
    if head.None? then None
    else
      var a, n := head.value.0, head.value.1;
      if n >= |s| then Some(([a], []))
      else
        var g := LeadingSpaces(s[n..]);
        if g == 0 then None
        else
          var tail := ParseRule(s[n + g..]);
          if tail.None? then None else Some(([a] + tail.value.0, [g] + tail.value.1))
  }

  /** `_ACCESS_RULES_VALIDATION_PATTERN.fullmatch(s) != None`. */
  predicate ValidRule(s: string) {
    ParseRule(s).Some?
  }

  lemma ParseAtomSpells(s: string)
    requires ParseAtom(s).Some?
    ensures var (a, n) := ParseAtom(s).value;
      IsOp(a.op) && n == |AtomText(a)| <= |s| && s[..n] == AtomText(a)
  {
  }

  lemma ParseAtomReads(a: Atom, t: string)
    requires IsOp(a.op)
    ensures ParseAtom(AtomText(a) + t) == Some((a, |AtomText(a)|))
  {
  }

  lemma RenderStep(atoms: seq<Atom>, gaps: seq<nat>)
    requires |atoms| == |gaps| + 1 && gaps != []
    ensures Render(atoms, gaps) == AtomText(atoms[0]) + (Spaces(gaps[0]) + Render(atoms[1..], gaps[1..]))
  {
  }

  lemma RenderStartsWithAtom(atoms: seq<Atom>, gaps: seq<nat>)
    requires |atoms| == |gaps| + 1 && IsOp(atoms[0].op)
    ensures var r := Render(atoms, gaps); r != [] && r[0] != ' '
  {
    if gaps != [] {
      RenderStep(atoms, gaps);
    }
  }

  lemma Cons(a: Atom, g: nat, atoms: seq<Atom>, gaps: seq<nat>)
    requires IsOp(a.op) && g >= 1 && WellFormed(atoms, gaps)
    ensures WellFormed([a] + atoms, [g] + gaps)
    ensures Render([a] + atoms, [g] + gaps) == AtomText(a) + (Spaces(g) + Render(atoms, gaps))
  {
    assert ([a] + atoms)[1..] == atoms && ([g] + gaps)[1..] == gaps;
  }

  /** The first `LeadingSpaces(t)` characters of `t` are those spaces. */
  lemma SpacesPrefix(t: string)
    ensures t[..LeadingSpaces(t)] == Spaces(LeadingSpaces(t))
  {
    LeadingSpacesAre(t);
  }

  /** One atom and one run of spaces in front of a spelled rest spell the whole. */
  lemma SoundStep(s: string, a: Atom, n: nat, atoms: seq<Atom>, gaps: seq<nat>)
    requires ParseAtom(s) == Some((a, n)) && n < |s|
    requires LeadingSpaces(s[n..]) >= 1
    requires WellFormed(atoms, gaps) && Render(atoms, gaps) == s[n + LeadingSpaces(s[n..])..]
    ensures WellFormed([a] + atoms, [LeadingSpaces(s[n..])] + gaps)
    ensures Render([a] + atoms, [LeadingSpaces(s[n..])] + gaps) == s
  {
    ParseAtomSpells(s);
    var t := s[n..];
    var g := LeadingSpaces(t);
    Cons(a, g, atoms, gaps);
    SpacesPrefix(t);
    assert t[..g] + t[g..] == t;
    assert s[..n] + t == s;
  }

  /** Whatever the recognizer accepts is spelled by well-formed atoms and gaps. */
  lemma {:induction false} ParseRuleSound(s: string)
    requires ParseRule(s).Some?
    ensures WellFormed(ParseRule(s).value.0, ParseRule(s).value.1)
    ensures Render(ParseRule(s).value.0, ParseRule(s).value.1) == s
    decreases |s|
  {
    var a, n := ParseAtom(s).value.0, ParseAtom(s).value.1;
    if n >= |s| {
      ParseAtomSpells(s);
      assert s[..n] == s;
    } else {
      var g := LeadingSpaces(s[n..]);
      var tail := s[n + g..];
      ParseRuleSound(tail);
      SoundStep(s, a, n, ParseRule(tail).value.0, ParseRule(tail).value.1);
    }
  }

  lemma {:induction false} LeadingSpacesAre(s: string)
    ensures LeadingSpaces(s) == |s| || s[LeadingSpaces(s)] != ' '
    ensures forall i :: 0 <= i < LeadingSpaces(s) ==> s[i] == ' '
    decreases |s|
  {
    if s != [] && s[0] == ' ' {
      LeadingSpacesAre(s[1..]);
    }
  }

  lemma {:induction false} LeadingSpacesOf(g: nat, t: string)
    requires t == [] || t[0] != ' '
    ensures LeadingSpaces(Spaces(g) + t) == g
    decreases g
  {
    if g > 0 {
      assert (Spaces(g) + t)[1..] == Spaces(g - 1) + t;
      LeadingSpacesOf(g - 1, t);
    }
  }

  /** Every well-formed spelling is accepted and parsed back to itself. */
  lemma {:induction false} ParseRuleComplete(atoms: seq<Atom>, gaps: seq<nat>)
    requires WellFormed(atoms, gaps)
    ensures ParseRule(Render(atoms, gaps)) == Some((atoms, gaps))
    decreases |gaps|
  {
    var a := atoms[0];
    var n := |AtomText(a)|;
    if gaps == [] {
      assert AtomText(a) + [] == AtomText(a);
      ParseAtomReads(a, []);
      assert atoms == [a];
    } else {
      var rest := Render(atoms[1..], gaps[1..]);
      var after := Spaces(gaps[0]) + rest;
      RenderStep(atoms, gaps);
      var s := AtomText(a) + after;
      ParseAtomReads(a, after);
      assert s[n..] == after;
      RenderStartsWithAtom(atoms[1..], gaps[1..]);
      LeadingSpacesOf(gaps[0], rest);
      assert s[n + gaps[0]..] == rest;
      assert WellFormed(atoms[1..], gaps[1..]);
      ParseRuleComplete(atoms[1..], gaps[1..]);
      assert atoms == [a] + atoms[1..] && gaps == [gaps[0]] + gaps[1..];
    }
  }

  /** A rule string is valid exactly when it spells well-formed atoms. */
  lemma ValidRuleIff(s: string)
    ensures ValidRule(s) <==> exists atoms, gaps :: WellFormed(atoms, gaps) && Render(atoms, gaps) == s
  {
    if ValidRule(s) {
      ParseRuleSound(s);
    }
    if exists atoms, gaps :: WellFormed(atoms, gaps) && Render(atoms, gaps) == s {
      var atoms, gaps :| WellFormed(atoms, gaps) && Render(atoms, gaps) == s;
      ParseRuleComplete(atoms, gaps);
    }
  }

  /** A single atom is a valid rule. */
  lemma AtomIsRule(a: Atom)
    requires IsOp(a.op)
    ensures ValidRule(AtomText(a))
  {
    ParseAtomReads(a, []);
    assert AtomText(a) + [] == AtomText(a);
  }

  /** An atom, one space and a valid rule make a valid rule. */
  lemma AtomThenRule(a: Atom, rest: string)
    requires IsOp(a.op) && ValidRule(rest)
    ensures ValidRule(AtomText(a) + " " + rest)
  {
    var s := AtomText(a) + " " + rest;
    var n := |AtomText(a)|;
    ParseAtomReads(a, " " + rest);
    assert s == AtomText(a) + (" " + rest);
    assert s[n..] == " " + rest;
    ParseAtomSpells(rest);
    LeadingSpacesOf(1, rest);
    assert Spaces(1) == " ";
    assert s[n + 1..] == rest;
  }

  // ---------------------------------------------------------------------
  // Access dictionaries and the configuration built from user input.
  // ---------------------------------------------------------------------

  /** A key of an access dictionary: an attribute name, or a compiled
      pattern known by its id. */
  datatype Key = Name(name: string) | Pattern(id: nat)

  /** `pattern.fullmatch(name) != None`, for each pattern id. */
  type Matcher = (nat, string) -> bool

  /** The ids of the two predefined patterns, `.*` and the private-name pattern. */
  const AllPublicId: nat := 0
  const UnderscorePrivateId: nat := 1

  /** A value of the user's input dictionary: a rule string, an
      (alias, rule) tuple, or anything else. */
  datatype RuleValue = RuleString(rule: string) | AliasRule(alias: string, rule: string) | OtherValue

  const AllPublic: seq<(Key, RuleValue)> := [(Pattern(AllPublicId), RuleString("r w d"))]
  const UnderscorePrivate: seq<(Key, RuleValue)> := [(Pattern(UnderscorePrivateId), RuleString("!r !w !d"))]

  /** An insertion-ordered dictionary. */
  type Dict<T> = seq<(Key, T)>

  /** `d[k] = v`: an existing key keeps its place, a new one goes last. */
  function Put<T>(d: Dict<T>, k: Key, v: T): Dict<T>
  {
    if d == [] then [(k, v)]
    else if d[0].0 == k then [(k, v)] + d[1..]
    else [d[0]] + Put(d[1..], k, v)
  }

  function Lookup<T>(d: Dict<T>, k: Key): Option<T>
  {
    if d == [] then None else if d[0].0 == k then Some(d[0].1) else Lookup(d[1..], k)
  }

  lemma {:induction false} PutLookup<T>(d: Dict<T>, k: Key, v: T, k': Key)
    ensures Lookup(Put(d, k, v), k') == if k' == k then Some(v) else Lookup(d, k')
  {
    if d != [] && d[0].0 != k {
      PutLookup(d[1..], k, v, k');
    }
  }

  datatype Config = Config(readability: Dict<bool>, writability: Dict<bool>,
                           deletability: Dict<bool>, aliases: Dict<string>)

  /** `s.count(c)`. */
  function CountOf(s: string, c: char): nat {
    multiset(s)[c]
  }

  /** `('!' + c) in s`. */
  predicate HasDeny(s: string, c: char) {
    exists i :: 0 <= i < |s| - 1 && s[i] == '!' && s[i + 1] == c
  }

  /** The readability map after one rule: the r, w and d tests each write
      the same key of `readability`, so the last letter present wins. */
  function ApplyRule(readability: Dict<bool>, k: Key, rule: string): Dict<bool>
  {
    var afterR := if 'r' in rule then Put(readability, k, !HasDeny(rule, 'r')) else readability;
    var afterW := if 'w' in rule then Put(afterR, k, !HasDeny(rule, 'w')) else afterR;
    if 'd' in rule then Put(afterW, k, !HasDeny(rule, 'd')) else afterW
  }

  /** The loop's state: the four dictionaries and the variable `rule`,
      which keeps its value from one iteration to the next. */
  datatype Building = Building(config: Config, rule: Option<string>)

  /** One iteration of the constructor's loop. */
  function Step(b: Building, k: Key, v: RuleValue): Outcome<Building>
  {
    var c := b.config;
    var chosen: Outcome<(Config, string)> :=
      match v
      case AliasRule(alias, r) =>
        if k.Name? then Raise(ValueError)
        else if !ValidRule(r) then Raise(ValueError)
        else Ok((c.(aliases := Put(c.aliases, k, alias)), r))
      case RuleString(r) =>
        if !ValidRule(r) then Raise(ValueError) else Ok((c, r))
      case OtherValue =>
        if b.rule.None? then Raise(UnboundLocalError) else Ok((c, b.rule.value));
    match chosen
    case Raise(e) => Raise(e)
    case Ok((c', r)) =>
      if CountOf(r, 'r') >= 2 || CountOf(r, 'w') >= 2 || CountOf(r, 'd') >= 2 then Raise(ValueError)
      else Ok(Building(c'.(readability := ApplyRule(c'.readability, k, r)), Some(r)))
  }

  function BuildSpec(input: seq<(Key, RuleValue)>): Outcome<Building>
  {
    if input == [] then Ok(Building(Config([], [], [], []), None))
    else
      match BuildSpec(input[..|input| - 1])
      case Raise(e) => Raise(e)
      case Ok(b) => Step(b, input[|input| - 1].0, input[|input| - 1].1)
  }

  /** What `AccessConfig(input)` builds or raises. */
  function AccessConfigOf(input: seq<(Key, RuleValue)>): Outcome<Config>
  {
    match BuildSpec(input)
    case Raise(e) => Raise(e)
    case Ok(b) => Ok(b.config)
  }

  lemma {:induction false} BuildStops(input: seq<(Key, RuleValue)>, k: nat)
    requires k <= |input| && BuildSpec(input[..k]).Raise?
    ensures BuildSpec(input) == BuildSpec(input[..k])
    decreases |input| - k
  {
    if k < |input| {
      assert input[..k + 1][..k] == input[..k];
      BuildStops(input, k + 1);
    } else {
      assert input[..k] == input;
    }
  }

  /** The effective `AccessConfig.__init__`. */
  method NewAccessConfig(input: seq<(Key, RuleValue)>) returns (r: Outcome<Config>)
    ensures r == AccessConfigOf(input)
  {
    var readability: Dict<bool> := [];
    var writability: Dict<bool> := [];
    var deletability: Dict<bool> := [];
    var aliases: Dict<string> := [];
    var rule: Option<string> := None;
    var i := 0;
    while i < |input|
      invariant 0 <= i <= |input|
      invariant BuildSpec(input[..i]) == Ok(Building(Config(readability, writability, deletability, aliases), rule))
    {
      assert input[..i + 1][..i] == input[..i];
      var k, v := input[i].0, input[i].1;
      if v.AliasRule? {
        if k.Name? {
          BuildStops(input, i + 1);
          return Raise(ValueError);
        }
        aliases := Put(aliases, k, v.alias);
        if !ValidRule(v.rule) {
          BuildStops(input, i + 1);
          return Raise(ValueError);
        }
        rule := Some(v.rule);
      } else if v.RuleString? {
        if !ValidRule(v.rule) {
          BuildStops(input, i + 1);
          return Raise(ValueError);
        }
        rule := Some(v.rule);
      }
      if rule.None? {
        BuildStops(input, i + 1);
        return Raise(UnboundLocalError);
      }
      var rl := rule.value;
      if CountOf(rl, 'r') >= 2 || CountOf(rl, 'w') >= 2 || CountOf(rl, 'd') >= 2 {
        BuildStops(input, i + 1);
        return Raise(ValueError);
      }
      if 'r' in rl {
        readability := Put(readability, k, !HasDeny(rl, 'r'));
      }
      if 'w' in rl {
        readability := Put(readability, k, !HasDeny(rl, 'w'));
      }
      if 'd' in rl {
        readability := Put(readability, k, !HasDeny(rl, 'd'));
      }
      i := i + 1;
    }
    assert input[..i] == input;
    r := Ok(Config(readability, writability, deletability, aliases));
  }

  // ---------------------------------------------------------------------
  // Properties of the configurations the constructor builds.
  // ---------------------------------------------------------------------

  /** Every rule writes `readability` only: `writability` and
      `deletability` stay empty whatever the input. */
  lemma {:induction false} OnlyReadabilityIsWritten(input: seq<(Key, RuleValue)>)
    requires AccessConfigOf(input).Ok?
    ensures AccessConfigOf(input).value.writability == []
    ensures AccessConfigOf(input).value.deletability == []
    decreases |input|
  {
    if input != [] {
      OnlyReadabilityIsWritten(input[..|input| - 1]);
    }
  }

  /** Aliases come only from tuples, which only pattern keys may carry. */
  lemma {:induction false} AliasesArePatternKeyed(input: seq<(Key, RuleValue)>)
    requires AccessConfigOf(input).Ok?
    ensures forall name :: Lookup(AccessConfigOf(input).value.aliases, Name(name)) == None
    decreases |input|
  {
    if input != [] {
      var prefix := input[..|input| - 1];
      AliasesArePatternKeyed(prefix);
      var (k, v) := input[|input| - 1];
      if v.AliasRule? {
        forall name {
          PutLookup(AccessConfigOf(prefix).value.aliases, k, v.alias, Name(name));
        }
      }
    }
  }

  /** The access a rule grants to its key: the r, w and d tests write the
      same entry in turn, so the last letter the rule names decides. */
  function Decision(rule: string): bool
    requires ValidRule(rule)
  {
    if 'd' in rule then !HasDeny(rule, 'd')
    else if 'w' in rule then !HasDeny(rule, 'w')
    else !HasDeny(rule, 'r')
  }

  /** A valid rule contains one of r, w or d. */
  lemma ValidRuleNamesAnOp(rule: string)
    requires ValidRule(rule)
    ensures 'r' in rule || 'w' in rule || 'd' in rule
  {
    ParseAtomSpells(rule);
    var a := ParseAtom(rule).value.0;
    assert a.op == rule[|AtomText(a)| - 1];
  }

  lemma {:induction false} PutPut<T>(d: Dict<T>, k: Key, v1: T, v2: T)
    ensures Put(Put(d, k, v1), k, v2) == Put(d, k, v2)
  {
    if d != [] && d[0].0 != k {
      PutPut(d[1..], k, v1, v2);
    }
  }

  /** Applying a valid rule writes its decision into the key's entry. */
  lemma ApplyRuleIsPut(readability: Dict<bool>, k: Key, rule: string)
    requires ValidRule(rule)
    ensures ApplyRule(readability, k, rule) == Put(readability, k, Decision(rule))
  {
    ValidRuleNamesAnOp(rule);
    var afterR := if 'r' in rule then Put(readability, k, !HasDeny(rule, 'r')) else readability;
    if 'r' in rule { PutPut(readability, k, !HasDeny(rule, 'r'), !HasDeny(rule, 'w')); }
    var afterW := if 'w' in rule then Put(afterR, k, !HasDeny(rule, 'w')) else afterR;
    if 'w' in rule || 'r' in rule {
      PutPut(readability, k, if 'w' in rule then !HasDeny(rule, 'w') else !HasDeny(rule, 'r'), !HasDeny(rule, 'd'));
    }
  }

  /** After a key's rule is applied, its readability entry is the rule's
      decision and every other key keeps its entry. */
  lemma ApplyRuleDecides(readability: Dict<bool>, k: Key, rule: string, k': Key)
    requires ValidRule(rule)
    ensures Lookup(ApplyRule(readability, k, rule), k') ==
            if k' == k then Some(Decision(rule)) else Lookup(readability, k')
  {
    ApplyRuleIsPut(readability, k, rule);
    PutLookup(readability, k, Decision(rule), k');
  }

  /** Adding one more rule string to an input that builds: the new key
      reads as the rule decides, the others as before, unless the rule
      names one of r, w or d twice. */
  lemma AppendRule(input: seq<(Key, RuleValue)>, k: Key, rule: string, k': Key)
    requires AccessConfigOf(input).Ok? && ValidRule(rule)
    ensures var r := AccessConfigOf(input + [(k, RuleString(rule))]);
      && (r.Raise? <==> CountOf(rule, 'r') >= 2 || CountOf(rule, 'w') >= 2 || CountOf(rule, 'd') >= 2)
      && (r.Ok? ==>
            Lookup(r.value.readability, k') ==
              if k' == k then Some(Decision(rule)) else Lookup(AccessConfigOf(input).value.readability, k'))
  {
    assert (input + [(k, RuleString(rule))])[..|input|] == input;
    ApplyRuleDecides(AccessConfigOf(input).value.readability, k, rule, k');
  }

  /** An admissible rule string appended to an input that builds writes its
      decision into the key's readability entry and becomes the current rule. */
  lemma AppendValidRule(input: seq<(Key, RuleValue)>, b: Building, k: Key, rule: string)
    requires BuildSpec(input) == Ok(b) && ValidRule(rule)
    requires CountOf(rule, 'r') < 2 && CountOf(rule, 'w') < 2 && CountOf(rule, 'd') < 2
    ensures BuildSpec(input + [(k, RuleString(rule))])
         == Ok(Building(b.config.(readability := Put(b.config.readability, k, Decision(rule))), Some(rule)))
  {
    assert (input + [(k, RuleString(rule))])[..|input|] == input;
    ApplyRuleIsPut(b.config.readability, k, rule);
  }

  /** A tuple under a plain-name key is refused. */
  lemma TupleUnderNameRefused(input: seq<(Key, RuleValue)>, name: string, alias: string, rule: string)
    requires AccessConfigOf(input).Ok?
    ensures AccessConfigOf(input + [(Name(name), AliasRule(alias, rule))]) == Raise(ValueError)
  {
    assert (input + [(Name(name), AliasRule(alias, rule))])[..|input|] == input;
  }

  /** A rule string, or the rule of a tuple under a pattern key, that does
      not match the grammar is refused. */
  lemma InvalidRuleRefused(input: seq<(Key, RuleValue)>, k: Key, v: RuleValue)
    requires AccessConfigOf(input).Ok?
    requires v.RuleString? || (v.AliasRule? && k.Pattern?)
    requires !ValidRule(v.rule)
    ensures AccessConfigOf(input + [(k, v)]) == Raise(ValueError)
  {
    assert (input + [(k, v)])[..|input|] == input;
  }

  /** An (alias, rule) tuple under a pattern key stores the alias and applies
      the rule, unless the rule names one of r, w or d twice. */
  lemma AliasUnderPattern(input: seq<(Key, RuleValue)>, id: nat, alias: string, rule: string)
    requires AccessConfigOf(input).Ok? && ValidRule(rule)
    requires CountOf(rule, 'r') < 2 && CountOf(rule, 'w') < 2 && CountOf(rule, 'd') < 2
    ensures var c := AccessConfigOf(input).value;
      AccessConfigOf(input + [(Pattern(id), AliasRule(alias, rule))])
        == Ok(c.(aliases := Put(c.aliases, Pattern(id), alias),
                 readability := ApplyRule(c.readability, Pattern(id), rule)))
  {
    assert (input + [(Pattern(id), AliasRule(alias, rule))])[..|input|] == input;
  }

  /** A value that is neither a string nor a tuple reuses the rule of the
      entry before it: under any key it applies that rule, and it fails on
      the first entry. A dictionary never repeats a key, so the same-key
      clause describes no input the constructor can receive; it records
      that applying the reused rule again changes nothing. */
  lemma OtherValueReusesRule(input: seq<(Key, RuleValue)>, k: Key, rule: string, k2: Key)
    requires ValidRule(rule)
    requires AccessConfigOf(input + [(k, RuleString(rule))]).Ok?
    ensures var withRule := input + [(k, RuleString(rule))];
      var c := AccessConfigOf(withRule).value;
      AccessConfigOf(withRule + [(k2, OtherValue)]) == Ok(c.(readability := ApplyRule(c.readability, k2, rule)))
    ensures var withRule := input + [(k, RuleString(rule))];
      AccessConfigOf(withRule + [(k, OtherValue)]) == AccessConfigOf(withRule)
    ensures AccessConfigOf([(k, OtherValue)]) == Raise(UnboundLocalError)
  {
    var withRule := input + [(k, RuleString(rule))];
    assert withRule[..|input|] == input;
    assert (withRule + [(k, OtherValue)])[..|withRule|] == withRule;
    assert (withRule + [(k2, OtherValue)])[..|withRule|] == withRule;
    var b := BuildSpec(input).value;
    var c := b.config;
    assert BuildSpec(withRule) == Ok(Building(c.(readability := ApplyRule(c.readability, k, rule)), Some(rule)));
    ApplyRuleIdempotent(c.readability, k, rule);
    assert [(k, OtherValue)][..0] == [];
    assert BuildSpec([(k, OtherValue)]) == Step(Building(Config([], [], [], []), None), k, OtherValue);
  }

  lemma ApplyRuleIdempotent(readability: Dict<bool>, k: Key, rule: string)
    requires ValidRule(rule)
    ensures ApplyRule(ApplyRule(readability, k, rule), k, rule) == ApplyRule(readability, k, rule)
  {
    ApplyRuleIsPut(readability, k, rule);
    ApplyRuleIsPut(ApplyRule(readability, k, rule), k, rule);
    PutPut(readability, k, Decision(rule), Decision(rule));
  }

  // ---------------------------------------------------------------------
  // Name checks and the view.
  // ---------------------------------------------------------------------

  /** `k == name`, or `k` is a pattern that fully matches `name`. */
  predicate KeyMatches(k: Key, name: string, matcher: Matcher) {
    k == Name(name) || (k.Pattern? && matcher(k.id, name))
  }

  /** Access is granted when some entry matching the name allows it and
      no matching entry forbids it. */
  predicate Allowed(name: string, rules: Dict<bool>, matcher: Matcher) {
    && (exists i :: 0 <= i < |rules| && KeyMatches(rules[i].0, name, matcher) && rules[i].1)
    && (forall i :: 0 <= i < |rules| && KeyMatches(rules[i].0, name, matcher) ==> rules[i].1)
  }

  /** `_check_name`: scan the rules in order, stop at the first matching
      entry that forbids. */
  method CheckName(name: string, rules: Dict<bool>, matcher: Matcher) returns (r: bool)
    ensures r == Allowed(name, rules, matcher)
  {
    r := false;
    var i := 0;
    while i < |rules|
      invariant 0 <= i <= |rules|
      invariant r <==> exists j :: 0 <= j < i && KeyMatches(rules[j].0, name, matcher) && rules[j].1
      invariant forall j :: 0 <= j < i && KeyMatches(rules[j].0, name, matcher) ==> rules[j].1
    {
      if KeyMatches(rules[i].0, name, matcher) {
        if rules[i].1 {
          r := true;
        } else {
          return false;
        }
      }
      i := i + 1;
    }
  }

  /** `_get_alias`: the alias stored under the name, or the name itself. */
  function GetAlias(name: string, aliases: Dict<string>): string {
    match Lookup(aliases, Name(name))
    case Some(alias) => alias
    case None => name
  }

  /** In every configuration the constructor builds, a name is its own alias. */
  lemma BuiltAliasIsName(input: seq<(Key, RuleValue)>, name: string)
    requires AccessConfigOf(input).Ok?
    ensures GetAlias(name, AccessConfigOf(input).value.aliases) == name
  {
    AliasesArePatternKeyed(input);
  }

  /** No name may be set or deleted through a view of a built configuration. */
  lemma BuiltViewsForbidChanges(input: seq<(Key, RuleValue)>, name: string, matcher: Matcher)
    requires AccessConfigOf(input).Ok?
    ensures !Allowed(name, AccessConfigOf(input).value.writability, matcher)
    ensures !Allowed(name, AccessConfigOf(input).value.deletability, matcher)
  {
    OnlyReadabilityIsWritten(input);
  }

  /** The attributes of the object a view wraps. */
  class SourceObject<V> {
    var attributes: map<string, V>

    constructor(attributes: map<string, V>)
      ensures this.attributes == attributes
    {
      this.attributes := attributes;
    }
  }

  class AccessView<V> {
    const source: SourceObject<V>
    const config: Config
    const matcher: Matcher

    constructor(source: SourceObject<V>, config: Config, matcher: Matcher)
      ensures this.source == source && this.config == config && this.matcher == matcher
    {
      this.source := source;
      this.config := config;
      this.matcher := matcher;
    }

    /** `__getattribute__`. */
    method GetAttribute(name: string) returns (r: Outcome<V>)
      ensures !Allowed(name, config.readability, matcher) ==> r == Raise(AttributeError)
      ensures Allowed(name, config.readability, matcher) ==>
        var alias := GetAlias(name, config.aliases);
        r == if alias in source.attributes then Ok(source.attributes[alias]) else Raise(AttributeError)
    {
      var allowed := CheckName(name, config.readability, matcher);
      if allowed {
        var alias := GetAlias(name, config.aliases);
        if alias in source.attributes {
          r := Ok(source.attributes[alias]);
        } else {
          r := Raise(AttributeError);
        }
      } else {
        r := Raise(AttributeError);
      }
    }

    /** `__setattr__`. */
    method SetAttribute(name: string, value: V) returns (raised: Option<Raised>)
      modifies source
      ensures !Allowed(name, config.writability, matcher) ==>
        raised == Some(AttributeError) && source.attributes == old(source.attributes)
      ensures Allowed(name, config.writability, matcher) ==>
        raised == None && source.attributes == old(source.attributes)[GetAlias(name, config.aliases) := value]
    {
      var allowed := CheckName(name, config.writability, matcher);
      if allowed {
        source.attributes := source.attributes[GetAlias(name, config.aliases) := value];
        raised := None;
      } else {
        raised := Some(AttributeError);
      }
    }

    /** `__delattr__`. */
    method DeleteAttribute(name: string) returns (raised: Option<Raised>)
      modifies source
      ensures var alias := GetAlias(name, config.aliases);
        if Allowed(name, config.deletability, matcher) && alias in old(source.attributes) then
          raised == None && source.attributes == old(source.attributes) - {alias}
        else
          raised == Some(AttributeError) && source.attributes == old(source.attributes)
    {
      var allowed := CheckName(name, config.deletability, matcher);
      var alias := GetAlias(name, config.aliases);
      if allowed && alias in source.attributes {
        source.attributes := source.attributes - {alias};
        raised := None;
      } else {
        raised := Some(AttributeError);
      }
    }
  }

  // ---------------------------------------------------------------------
  // Worked configurations.
  // ---------------------------------------------------------------------

  /** A rule with no character counted twice. */
  predicate Admissible(rule: string) {
    ValidRule(rule) && CountOf(rule, 'r') < 2 && CountOf(rule, 'w') < 2 && CountOf(rule, 'd') < 2
  }

  /** Two admissible rule strings under different keys build a configuration
      holding exactly their two decisions, in input order. */
  lemma TwoRules(k1: Key, r1: string, k2: Key, r2: string)
    requires k1 != k2 && Admissible(r1) && Admissible(r2)
    ensures AccessConfigOf([(k1, RuleString(r1)), (k2, RuleString(r2))])
         == Ok(Config([(k1, Decision(r1)), (k2, Decision(r2))], [], [], []))
  {
    var empty := Building(Config([], [], [], []), None);
    AppendValidRule([], empty, k1, r1);
    assert [] + [(k1, RuleString(r1))] == [(k1, RuleString(r1))];
    var b1 := Building(Config([(k1, Decision(r1))], [], [], []), Some(r1));
    assert Put([], k1, Decision(r1)) == [(k1, Decision(r1))];
    AppendValidRule([(k1, RuleString(r1))], b1, k2, r2);
    var first: Dict<bool> := [(k1, Decision(r1))];
    assert first[1..] == [];
    assert Put(first, k2, Decision(r2)) == [(k1, Decision(r1)), (k2, Decision(r2))];
    assert [(k1, RuleString(r1))] + [(k2, RuleString(r2))] == [(k1, RuleString(r1)), (k2, RuleString(r2))];
  }

  /** `'r w d'` is a valid rule. */
  lemma AllPublicValid(open: string)
    requires open == "r w d"
    ensures ValidRule(open)
  {
    AtomIsRule(Atom(false, 'd'));
    assert AtomText(Atom(false, 'd')) == "d";
    AtomThenRule(Atom(false, 'w'), "d");
    assert AtomText(Atom(false, 'w')) + " " + "d" == "w d";
    AtomThenRule(Atom(false, 'r'), "w d");
    assert AtomText(Atom(false, 'r')) + " " + "w d" == open;
  }

  /** The rule of `ALL_PUBLIC` grants access. */
  lemma AllPublicRule(open: string)
    requires open == "r w d"
    ensures Admissible(open) && Decision(open)
  {
    AllPublicValid(open);
    assert multiset(open) == multiset{'r', ' ', 'w', ' ', 'd'};
    assert open[4] == 'd';
    assert !HasDeny(open, 'd') by {
      assert forall i :: 0 <= i < |open| ==> open[i] != '!';
    }
  }

  /** `'!r !w !d'` is a valid rule. */
  lemma HiddenValid(hidden: string)
    requires hidden == "!r !w !d"
    ensures ValidRule(hidden)
  {
    AtomIsRule(Atom(true, 'd'));
    assert AtomText(Atom(true, 'd')) == "!d";
    AtomThenRule(Atom(true, 'w'), "!d");
    assert AtomText(Atom(true, 'w')) + " " + "!d" == "!w !d";
    AtomThenRule(Atom(true, 'r'), "!w !d");
    assert AtomText(Atom(true, 'r')) + " " + "!w !d" == hidden;
  }

  /** `'!r !w !d'` denies access. */
  lemma HiddenRule(hidden: string)
    requires hidden == "!r !w !d"
    ensures Admissible(hidden) && !Decision(hidden)
  {
    HiddenValid(hidden);
    assert multiset(hidden) == multiset{'!', 'r', ' ', '!', 'w', ' ', '!', 'd'};
    assert hidden[6] == '!' && hidden[7] == 'd';
  }

  /** `AccessConfig(UNDERSCORE_PRIVATE)` denies every name its pattern matches. */
  lemma UnderscorePrivateBuilds(hidden: string)
    requires hidden == "!r !w !d"
    ensures AccessConfigOf(UnderscorePrivate) == Ok(Config([(Pattern(UnderscorePrivateId), false)], [], [], []))
  {
    HiddenRule(hidden);
    var k := Pattern(UnderscorePrivateId);
    AppendValidRule([], Building(Config([], [], [], []), None), k, hidden);
    assert [] + [(k, RuleString(hidden))] == UnderscorePrivate;
    assert Put([], k, false) == [(k, false)];
  }

  /** A name that `UNDERSCORE_PRIVATE`'s pattern fully matches (such as
      `_secret`) cannot be read through a view built from it. */
  lemma UnderscorePrivateHides(hidden: string, matcher: Matcher, name: string)
    requires hidden == "!r !w !d"
    requires matcher(UnderscorePrivateId, name)
    ensures var c := AccessConfigOf(UnderscorePrivate);
      c.Ok? && !Allowed(name, c.value.readability, matcher)
  {
    UnderscorePrivateBuilds(hidden);
    var rules := [(Pattern(UnderscorePrivateId), false)];
    assert KeyMatches(rules[0].0, name, matcher);
  }

  lemma OwnerHiddenBuilds(hidden: string)
    requires hidden == "!r !w !d"
    ensures AccessConfigOf(AllPublic + [(Name("owner"), RuleString(hidden))])
         == Ok(Config([(Pattern(AllPublicId), true), (Name("owner"), false)], [], [], []))
  {
    AllPublicRule("r w d");
    HiddenRule(hidden);
    TwoRules(Pattern(AllPublicId), "r w d", Name("owner"), hidden);
    AllPublicThen(Name("owner"), RuleString(hidden));
  }

  lemma AllPublicThen(k: Key, v: RuleValue)
    ensures AllPublic + [(k, v)] == [(Pattern(AllPublicId), RuleString("r w d")), (k, v)]
  {
  }

  /** With the test's two rules, a `.*` matcher that accepts the names
      `bread` and `owner` (neither contains a line break, which `.*` does
      not match) lets `bread` be read and refuses `owner`. */
  lemma OwnerHiddenDecisions(rules: Dict<bool>, matcher: Matcher, bread: string, owner: string)
    requires rules == [(Pattern(AllPublicId), true), (Name("owner"), false)]
    requires bread == "bread" && owner == "owner"
    requires matcher(AllPublicId, bread) && matcher(AllPublicId, owner)
    ensures Allowed(bread, rules, matcher) && !Allowed(owner, rules, matcher)
  {
    assert KeyMatches(rules[0].0, bread, matcher);
    assert KeyMatches(rules[1].0, owner, matcher);
    assert !KeyMatches(rules[1].0, bread, matcher);
  }

  /** `{**ALL_PUBLIC, 'owner': '!r !w !d'}`: `bread` can be read and `owner`
      cannot, given only that the `.*` pattern fully matches those two names. */
  lemma OwnerHiddenExample(hidden: string, matcher: Matcher, bread: string, owner: string)
    requires hidden == "!r !w !d"
    requires bread == "bread" && owner == "owner"
    requires matcher(AllPublicId, bread) && matcher(AllPublicId, owner)
    ensures var c := AccessConfigOf(AllPublic + [(Name("owner"), RuleString(hidden))]);
      && c.Ok?
      && Allowed(bread, c.value.readability, matcher)
      && !Allowed(owner, c.value.readability, matcher)
  {
    OwnerHiddenBuilds(hidden);
    OwnerHiddenDecisions([(Pattern(AllPublicId), true), (Name("owner"), false)], matcher, bread, owner);
  }

  /** `'!r w'` is admissible and grants access. */
  lemma DenyThenWriteRule(rule: string)
    requires rule == "!r w"
    ensures Admissible(rule) && Decision(rule)
  {
    DenyThenWriteValid(rule);
    assert multiset(rule) == multiset{'!', 'r', ' ', 'w'};
    assert rule[3] == 'w';
    assert !HasDeny(rule, 'w') by {
      assert forall i :: 0 <= i < |rule| - 1 ==> rule[i] != '!' || rule[i + 1] != 'w';
    }
  }

  /** `'!r w'` is a valid rule. */
  lemma DenyThenWriteValid(rule: string)
    requires rule == "!r w"
    ensures ValidRule(rule)
  {
    AtomIsRule(Atom(false, 'w'));
    assert AtomText(Atom(false, 'w')) == "w";
    AtomThenRule(Atom(true, 'r'), "w");
    assert AtomText(Atom(true, 'r')) + " " + "w" == rule;
  }

  /** `'!r w'`: the `w` test runs after the `r` test and overwrites the same
      entry, so the name stays readable. */
  lemma LaterLetterOverridesDeny(rule: string)
    requires rule == "!r w"
    ensures AccessConfigOf([(Name("x"), RuleString(rule))]) == Ok(Config([(Name("x"), true)], [], [], []))
  {
    DenyThenWriteRule(rule);
    AppendValidRule([], Building(Config([], [], [], []), None), Name("x"), rule);
    assert [] + [(Name("x"), RuleString(rule))] == [(Name("x"), RuleString(rule))];
  }
}

=== FILE: components.dfy ===
/** Components and distributors (reactor/component.py), and the synchronous
    broadcast pass shared by both reactors. A component is an opaque id; what
    the model observes of a broadcast is the trace of `on_event` calls it
    makes and the final `on_emit_completed`. The handlers themselves are
    foreign code and are taken to return normally. */
module Components {
  import opened Outcomes
  import opened Events

  /** `for i in components: i.on_event(reactor, p)`, as a trace. */
  function Deliveries(cs: seq<ComponentId>, p: Payload): seq<Delivery>
  {
    if cs == [] then [] else Deliveries(cs[..|cs| - 1], p) + [Deliver(cs[|cs| - 1], p)]
  }

  /** Every component gets the payload exactly once, in list order, and
      nothing else is delivered. */
  lemma {:induction false} DeliveriesExact(cs: seq<ComponentId>, p: Payload)
    ensures |Deliveries(cs, p)| == |cs|
    ensures forall i :: 0 <= i < |cs| ==> Deliveries(cs, p)[i] == Deliver(cs[i], p)
  {
    if cs != [] {
      DeliveriesExact(cs[..|cs| - 1], p);
    }
  }

  /** The loop over a component list. */
  method Broadcast(cs: seq<ComponentId>, p: Payload) returns (trace: seq<Delivery>)
    ensures trace == Deliveries(cs, p)
  {
    trace := [];
    var i := 0;
    while i < |cs|
      invariant 0 <= i <= |cs|
      invariant trace == Deliveries(cs[..i], p)
    {
      assert cs[..i + 1][..i] == cs[..i];
      trace := trace + [Deliver(cs[i], p)];
      i := i + 1;
    }
    assert cs[..i] == cs;
  }

  /** How an emission ends: it returns, it raises, or it waits forever. */
  datatype Ending = Returned | Raised(error: Raised) | Blocked

  datatype EmitResult = EmitResult(trace: seq<Delivery>, ending: Ending)

  /** The broadcast pass followed by `event.on_emit_completed()`; when the
      payload is `None` that last call raises `AttributeError`. */
  function PassResult(cs: seq<ComponentId>, p: Payload): EmitResult
  {
    if p.Ev? then EmitResult(Deliveries(cs, p) + [Complete(p)], Returned)
    else EmitResult(Deliveries(cs, p), Raised(AttributeError))
  }

  method RunPass(cs: seq<ComponentId>, p: Payload) returns (r: EmitResult)
    ensures r == PassResult(cs, p)
  {
    var trace := Broadcast(cs, p);
    if p.Ev? {
      r := EmitResult(trace + [Complete(p)], Returned);
    } else {
      r := EmitResult(trace, Raised(AttributeError));
    }
  }

  /** The pass delivers to each component once, in order, and only then
      completes the event. */
  lemma PassCompletesLast(cs: seq<ComponentId>, p: Payload)
    requires p.Ev?
    ensures PassResult(cs, p).ending == Returned
    ensures |PassResult(cs, p).trace| == |cs| + 1
    ensures forall i :: 0 <= i < |cs| ==> PassResult(cs, p).trace[i] == Deliver(cs[i], p)
    ensures PassResult(cs, p).trace[|cs|] == Complete(p)
  {
    DeliveriesExact(cs, p);
  }

  /** `ComponentContainer`: an ordered component list that only grows. */
  class ComponentContainer {
    var components: seq<ComponentId>

    constructor (components: seq<ComponentId>)
      ensures this.components == components
    {
      this.components := components;
    }

    method AddComponent(c: ComponentId)
      modifies this
      ensures components == old(components) + [c]
    {
      components := components + [c];
    }
  }

  /** Which `must_handle_event` a distributor has: the base one, which is
      abstract, or a `MappedDistributor`'s key comparison. */
  datatype DistributorRule = AbstractRule | MappedRule(key: int)

  /** `must_handle_event`. A mapped distributor handles an event that has a
      callable `get_mapped_distributor_key` answering, for this
      distributor, its stored key. */
  function MustHandleEvent(rule: DistributorRule, self: ComponentId, p: Payload): (r: Outcome<bool>)
    ensures rule.AbstractRule? <==> r == Raise(NotImplementedError)
  {
    match rule
    case AbstractRule => Raise(NotImplementedError)
    case MappedRule(key) => Ok(p.Ev? && p.event.mappedKey.Some? && p.event.mappedKey.value(self) == key)
  }

  /** What a distributor's `on_event` delivers to its own components. */
  function Forwarded(rule: DistributorRule, self: ComponentId, subs: seq<ComponentId>, p: Payload): Outcome<seq<Delivery>>
  {
    match MustHandleEvent(rule, self, p)
    case Raise(e) => Raise(e)
    case Ok(handle) => Ok(if handle then Deliveries(subs, p) else [])
  }

  /** A distributor forwards to every sub-component once, in order, exactly
      when its rule accepts the event; otherwise it delivers nothing. */
  lemma ForwardedIff(rule: DistributorRule, self: ComponentId, subs: seq<ComponentId>, p: Payload)
    requires rule.MappedRule?
    ensures Forwarded(rule, self, subs, p).Ok?
    ensures |Forwarded(rule, self, subs, p).value| > 0 ==> MustHandleEvent(rule, self, p) == Ok(true)
    ensures MustHandleEvent(rule, self, p) == Ok(true) ==>
              |Forwarded(rule, self, subs, p).value| == |subs| &&
              forall i :: 0 <= i < |subs| ==> Forwarded(rule, self, subs, p).value[i] == Deliver(subs[i], p)
  {
    DeliveriesExact(subs, p);
  }

  /** `Distributor` and `MappedDistributor`. */
  class Distributor {
    const id: ComponentId
    const rule: DistributorRule
    var components: seq<ComponentId>

    constructor (id: ComponentId, rule: DistributorRule)
      ensures this.id == id && this.rule == rule && components == []
    {
      this.id := id;
      this.rule := rule;
      components := [];
    }

    method AddComponent(c: ComponentId)
      modifies this
      ensures components == old(components) + [c]
    {
      components := components + [c];
    }

    method OnEvent(p: Payload) returns (r: Outcome<seq<Delivery>>)
      ensures r == Forwarded(rule, id, components, p)
    {
      var handle := MustHandleEvent(rule, id, p);
      if handle.Raise? {
        return Raise(handle.error);
      }
      if handle.value {
        var trace := Broadcast(components, p);
        r := Ok(trace);
      } else {
        r := Ok([]);
      }
    }
  }
}

=== FILE: events.dfy ===
/** Events as they travel through the bus (reactor/event.py), and the trace of
    deliveries a synchronous broadcast performs. */
module Events {
  import opened Outcomes

  /** A concrete type an injection query may name; `isinstance` is read as
      membership of the tag in an injectable's set of types. */
  type TypeTag = nat

  /** What an `InjectionEvent` asks for: a type, a name, or anything else
      (which the injection dispatcher rejects). */
  datatype Query = ByType(tag: TypeTag) | ByName(name: string) | OtherQuery

  /** The classes of event the core tells apart with `isinstance`. */
  datatype EventKind =
    | PlainKind
    | TransformKind(wrapped: Payload)        // TransformEvent(None, event)
    | InjectionKind(query: Query)            // InjectionEvent(None, query)

  /** An emitted event object: its identity, its class, and, when it has a
      callable `get_mapped_distributor_key`, the key that callable gives for
      each distributor. */
  datatype EventRef = EventRef(id: nat, kind: EventKind, mappedKey: Option<ComponentId -> int>)

  /** What `emit` hands to components: an event, or Python's `None`. */
  datatype Payload = NoEvent | Ev(event: EventRef)

  /** One observable step of a broadcast: `on_event` on a component, or
      `on_emit_completed` on the event. */
  datatype Delivery = Deliver(to: ComponentId, payload: Payload) | Complete(payload: Payload)

  /** The base `Event`: it records its source component; its
      `on_emit_completed` does nothing. */
  class Event {
    const source: Option<ComponentId>

    constructor (source: Option<ComponentId>)
      ensures this.source == source
    {
      this.source := source;
    }

    /** Has no effect: the method may modify nothing. */
    method OnEmitCompleted()
      ensures unchanged(this)
    {
    }
  }

  /** `EmittedFlagBlockingEvent`: an event with a one-shot completion flag. */
  class EmittedFlag {
    const source: Option<ComponentId>
    var emitCompleted: bool

    constructor (source: Option<ComponentId>)
      ensures this.source == source && !emitCompleted
    {
      this.source := source;
      emitCompleted := false;
    }

    /** Sets the flag; calling it again leaves it set. */
    method OnEmitCompleted()
      modifies this
      ensures emitCompleted && IsEmitCompleted()
    {
      emitCompleted := true;
    }

    predicate IsEmitCompleted()
      reads this
    {
      emitCompleted
    }
  }
}

=== FILE: futures.dfy ===
/** A snapshot of a `concurrent.futures.Future` as the returning events see it. */
module Futures {
  import opened Outcomes

  /** The state of a reply task at the moment it is inspected. */
  datatype Task<V> = Pending | Running | Done(value: V) | Failed(error: ErrorId) | Cancelled
  {
    /** `Future.done()`: finished with a result, with an exception, or cancelled. */
    predicate IsDone() {
      !Pending? && !Running?
    }

    /** `Future.cancel()`: only a task that has not started can be cancelled;
        a running or finished task is left as it is. */
    function Cancel(): (t: Task<V>)
      ensures Running? ==> t == this
      ensures t.IsDone()  || t == this
    {
      if Pending? then Cancelled else this
    }

    /** `Future.exception(0)` on a finished task: `None` for a result, the
        task's exception for a failure, and `CancelledError` raised for a
        cancelled task. */
    function Exception(): (r: Outcome<Option<ErrorId>>)
      requires IsDone()
      ensures r.Raise? <==> Cancelled?
      ensures r == Ok(None) <==> Done?
      ensures Failed? ==> r == Ok(Some(error))
    {
      match this
      case Done(_) => Ok(None)
      case Failed(e) => Ok(Some(e))
      case Cancelled => Raise(CancelledError)
    }

    /** `Future.result()` on a finished task: the value, the task's own
        exception re-raised, or `CancelledError`. */
    function Result(): (r: Outcome<V>)
      requires IsDone()
      ensures r.Ok? <==> Done?
      ensures Failed? ==> r == Raise(TaskError(error))
    {
      match this
      case Done(v) => Ok(v)
      case Failed(e) => Raise(TaskError(e))
      case Cancelled => Raise(CancelledError)
    }
  }
}

=== FILE: injection.dfy ===
/** Injection lookup (reactor/injection.py): a dispatcher component holding
    a set of injectables, which answers an `InjectionEvent`'s query by type
    or by name, and the emitter-side concatenation of the replies. */
module Injection {
  import opened Outcomes
  import opened Futures
  import opened Events
  import opened ReturningEvents
  import ReturningEventLemmas

  /** An injectable object: its identity, the types it is an instance of,
      and, for an `AbstractNamedInjectable`, its `get_injectable_name()`. */
  datatype Injectable = Injectable(ref: ComponentId, types: set<TypeTag>, name: Option<string>)

  /** `isinstance(i, t)`. */
  predicate IsInstance(i: Injectable, t: TypeTag) {
    t in i.types
  }

  /** Whether the dispatcher's loop for query `q` keeps injectable `i`. */
  predicate Matches(i: Injectable, q: Query) {
    match q
    case ByType(t) => IsInstance(i, t)
    case ByName(n) => i.name == Some(n)
    case OtherQuery => false
  }

  /** `BaseNamedInjectable`: it answers with the name it was given. */
  class BaseNamedInjectable {
    const injectableName: string

    constructor (injectableName: string)
      ensures GetInjectableName() == injectableName
    {
      this.injectableName := injectableName;
    }

    function GetInjectableName(): string {
      injectableName
    }
  }

  /** `InjectionDispatcher`. */
  class InjectionDispatcher {
    var injectables: set<Injectable>

    constructor ()
      ensures injectables == {}
    {
      injectables := {};
    }

    /** A set insertion: adding an injectable already held changes nothing. */
    method AddInjectable(x: Injectable)
      modifies this
      ensures injectables == old(injectables) + {x}
      ensures x in old(injectables) ==> injectables == old(injectables)
    {
      injectables := injectables + {x};
    }

    /** `on_event`: events other than injection events are ignored; a query
        by type or by name builds the set of matching injectables, which the
        code then drops without replying (the method may modify nothing, so
        no event and no registry changes); any other query raises
        `TypeError`. */
    method OnEvent(p: Payload) returns (raised: Option<Raised>, matched: set<Injectable>)
      ensures !(p.Ev? && p.event.kind.InjectionKind?) ==> raised == None && matched == {}
      ensures p.Ev? && p.event.kind.InjectionKind? && p.event.kind.query.OtherQuery? ==>
                raised == Some(TypeError)
      ensures p.Ev? && p.event.kind.InjectionKind? && !p.event.kind.query.OtherQuery? ==>
                raised == None &&
                forall i :: i in matched <==> i in injectables && Matches(i, p.event.kind.query)
    {
      raised, matched := None, {};
      if p.Ev? && p.event.kind.InjectionKind? {
        var q := p.event.kind.query;
        if q.OtherQuery? {
          raised := Some(TypeError);
        } else {
          var rest := injectables;
          while rest != {}
            invariant rest <= injectables
            invariant forall i :: i in matched <==> i in injectables && i !in rest && Matches(i, q)
            decreases rest
          {
            var i :| i in rest;
            if Matches(i, q) {
              matched := matched + {i};
            }
            rest := rest - {i};
          }
        }
      }
    }
  }

  /** `reduce(operator.concat, values)` over the reply values, in order. */
  function Concat<X>(rs: seq<(ComponentId, seq<X>)>): seq<X>
  {
    if rs == [] then [] else Concat(rs[..|rs| - 1]) + rs[|rs| - 1].1
  }

  /** `await_injections`: after the wait, the concatenated reply values;
      `get_reply`'s exceptions pass through, and with no reply at all
      `reduce` over nothing raises `TypeError`. `emitCompleted` is the
      event's completion flag: `wait_for_reply` returns only once that flag
      is set and every task is done, so the model asks for both. */
  function AwaitInjections<X>(es: seq<Entry<seq<X>>>, emitCompleted: bool): Outcome<seq<X>>
    requires emitCompleted && AllDone(es)
  {
    match GetReplySpec(es)
    case Raise(e) => Raise(e)
    case Ok(rs) => if rs == [] then Raise(TypeError) else Ok(Concat(rs))
  }

  /** An element is in the concatenation exactly when some reply value holds it. */
  lemma {:induction false} ConcatMembers<X>(rs: seq<(ComponentId, seq<X>)>, x: X)
    ensures x in Concat(rs) <==> exists i :: 0 <= i < |rs| && x in rs[i].1
  {
    if rs != [] {
      var pre := rs[..|rs| - 1];
      ConcatMembers(pre, x);
      if exists i :: 0 <= i < |pre| && x in pre[i].1 {
        var i :| 0 <= i < |pre| && x in pre[i].1;
        assert x in rs[i].1;
      }
      if exists i :: 0 <= i < |rs| && x in rs[i].1 {
        var i :| 0 <= i < |rs| && x in rs[i].1;
        if i < |pre| {
          assert x in pre[i].1;
        }
      }
    }
  }

  /** When every reply finished with a value, `await_injections` returns
      exactly the injectables some replier found. */
  lemma AwaitInjectionsCollects<X>(es: seq<Entry<seq<X>>>, x: X)
    requires |es| > 0
    requires forall i :: 0 <= i < |es| ==> es[i].task.Done?
    ensures AllDone(es)
    ensures AwaitInjections(es, true).Ok?
    ensures x in AwaitInjections(es, true).value <==>
              exists i :: 0 <= i < |es| && es[i].task.Done? && x in es[i].task.value
  {
    ReturningEventLemmas.AllResults(es);
    var rs := Results(es);
    assert GetReplySpec(es) == Ok(rs) && |rs| == |es| > 0;
    assert AwaitInjections(es, true) == Ok(Concat(rs));
    ConcatMembers(rs, x);
    if exists i :: 0 <= i < |rs| && x in rs[i].1 {
      var i :| 0 <= i < |rs| && x in rs[i].1;
      assert es[i].task.Done? && x in es[i].task.value;
    }
    if exists i :: 0 <= i < |es| && es[i].task.Done? && x in es[i].task.value {
      var i :| 0 <= i < |es| && es[i].task.Done? && x in es[i].task.value;
      assert rs[i].1 == es[i].task.value;
    }
  }

  /** The injection dispatcher never replies, so an injection event nobody
      else answers ends in `TypeError` from `reduce`. */
  lemma NoRepliesRaisesTypeError<X>()
    ensures AwaitInjections<X>([], true) == Raise(TypeError)
  {
  }
}

=== FILE: legacy_reactor.dfy ===
/** The older reactor of reactor/reactor.py: a plain broadcast `emit`, and
    `AbstractReactor.get_injectable`'s choice of how to hand back the result
    of an injection query. */
module LegacyReactor {
  import opened Outcomes
  import opened Events
  import opened ReturningEvents
  import opened Components
  import opened Injection

  /** How `get_injectable` hands back a result it does not wait for. */
  datatype HandleKind = FutureHandle | AwaitingView | ImmediateView

  /** The value of `get_injectable`: the chosen injectable (mode AWAIT), or
      a handle whose task will end with `eventual`. */
  datatype Injected = Chosen(injectable: Injectable) | Handed(kind: HandleKind, eventual: Outcome<Injectable>)

  /** The default `injectable_chooser`, `lambda l: l[0]`. */
  function DefaultChooser(l: seq<Injectable>): (r: Outcome<Injectable>)
    ensures r.Ok? <==> |l| > 0
  {
    if |l| > 0 then Ok(l[0]) else Raise(IndexError)
  }

  /** `get_injectable(query, mode, chooser)`, given the final reply
      registry of the `InjectionEvent` its task emits. The task computes
      `chooser(await_injections())`; mode 0 waits for it and re-raises its
      exception, modes 3, 1 and 2 wrap it in a future, an awaiting view or
      an immediate view, and any other mode raises `ValueError` without
      starting the task. */
  function GetInjectable(mode: int, es: seq<Entry<seq<Injectable>>>,
                         chooser: seq<Injectable> -> Outcome<Injectable>): Outcome<Injected>
    requires AllDone(es)
  {
    var work := match AwaitInjections(es, true)
                case Raise(e) => Raise(e)
                case Ok(l) => chooser(l);
    if mode == 0 then (if work.Ok? then Ok(Chosen(work.value)) else Raise(work.error))
    else if mode == 3 then Ok(Handed(FutureHandle, work))
    else if mode == 1 then Ok(Handed(AwaitingView, work))
    else if mode == 2 then Ok(Handed(ImmediateView, work))
    else Raise(ValueError)
  }

  /** Modes outside 0..3 are rejected; modes 1..3 hand back a handle that
      ends exactly as AWAIT mode would return or raise. */
  lemma GetInjectableModes(mode: int, es: seq<Entry<seq<Injectable>>>,
                           chooser: seq<Injectable> -> Outcome<Injectable>)
    requires AllDone(es)
    ensures (mode < 0 || mode > 3) ==> GetInjectable(mode, es, chooser) == Raise(ValueError)
    ensures 1 <= mode <= 3 ==>
              GetInjectable(mode, es, chooser).Ok? && GetInjectable(mode, es, chooser).value.Handed? &&
              var eventual := GetInjectable(mode, es, chooser).value.eventual;
              GetInjectable(0, es, chooser) ==
                (if eventual.Ok? then Ok(Chosen(eventual.value)) else Raise(eventual.error))
  {
  }

  /** In AWAIT mode with the default chooser, the result is the first of
      the concatenated injections, in reply order. */
  lemma AwaitTakesFirstInjection(es: seq<Entry<seq<Injectable>>>)
    requires |es| > 0 && forall i :: 0 <= i < |es| ==> es[i].task.Done?
    requires |es[0].task.value| > 0
    ensures AllDone(es)
    ensures GetInjectable(0, es, DefaultChooser) == Ok(Chosen(es[0].task.value[0]))
  {
    ReturningEventLemmas.AllResults(es);
    ConcatStartsWithFirst(GetReplySpec(es).value);
  }

  lemma {:induction false} ConcatStartsWithFirst(rs: seq<(ComponentId, seq<Injectable>)>)
    requires |rs| > 0 && |rs[0].1| > 0
    ensures |Concat(rs)| > 0 && Concat(rs)[0] == rs[0].1[0]
  {
    if |rs| > 1 {
      ConcatStartsWithFirst(rs[..|rs| - 1]);
    }
  }

  /** With no replier, AWAIT mode raises the `TypeError` of `reduce`. */
  lemma AwaitWithoutRepliesRaises(chooser: seq<Injectable> -> Outcome<Injectable>)
    ensures GetInjectable(0, [], chooser) == Raise(TypeError)
  {
  }

  /** `SimpleReactor` of reactor/reactor.py. */
  class SimpleReactor {
    var components: seq<ComponentId>
    const injectionDispatcher: InjectionDispatcher
    const injectionDispatcherId: ComponentId
    const factoryDistributorId: ComponentId

    /** The dispatcher and the factory distributor are the first two
        components; no injectable is registered. */
    constructor (injectionDispatcherId: ComponentId, factoryDistributorId: ComponentId)
      ensures components == [injectionDispatcherId, factoryDistributorId]
      ensures this.injectionDispatcherId == injectionDispatcherId
      ensures this.factoryDistributorId == factoryDistributorId
      ensures fresh(injectionDispatcher) && injectionDispatcher.injectables == {}
    {
      this.injectionDispatcherId := injectionDispatcherId;
      this.factoryDistributorId := factoryDistributorId;
      injectionDispatcher := new InjectionDispatcher();
      components := [injectionDispatcherId, factoryDistributorId];
    }

    method AddComponent(c: ComponentId)
      modifies this
      ensures components == old(components) + [c]
    {
      components := components + [c];
    }

    /** `emit`: each component once, in order, then `on_emit_completed`. */
    method Emit(p: Payload) returns (r: EmitResult)
      ensures p.Ev? ==> r.ending == Returned && |r.trace| == |components| + 1
      ensures p.Ev? ==> forall i :: 0 <= i < |components| ==> r.trace[i] == Deliver(components[i], p)
      ensures p.Ev? ==> r.trace[|components|] == Complete(p)
      ensures p.NoEvent? ==> r.ending == Raised(AttributeError) && r.trace == Deliveries(components, p)
    {
      r := RunPass(components, p);
      if p.Ev? {
        PassCompletesLast(components, p);
      }
    }
  }
}

=== FILE: outcomes.dfy ===
/** Values and exceptions shared by the whole model: component identities,
    the exceptions the library raises, and the Ok/Raise outcome of a call. */
module Outcomes {

  /** Components are compared by identity; an opaque id stands for the object. */
  type ComponentId = nat

  /** An exception raised inside a reply task; its identity is all the model needs. */
  type ErrorId = nat

  datatype Option<+T> = None | Some(value: T)

  /** Why a returning event refused an operation with `RuntimeError`. */
  datatype RuntimeReason = DuplicateReply | ReplyAfterEmit | ReplyNotFinished

  /** The exceptions the modelled code raises or lets through. */
  datatype Raised =
    | TaskError(error: ErrorId)          // re-raised from a reply task
    | CancelledError                     // asking a cancelled future for its outcome
    | Aggregate(errors: seq<ErrorId>)    // ParallelReturningException
    | RuntimeError(reason: RuntimeReason)
    | TypeError
    | ValueError
    | AttributeError
    | NotImplementedError
    | IndexError
    | UnboundLocalError

  /** What a call returns: a value, or the exception it raises. */
  datatype Outcome<+T> = Ok(value: T) | Raise(error: Raised)
}

=== FILE: returning_event_lemmas.dfy ===
/** Properties of the reply registry: what `is_replied` and `get_reply`
    aggregate, where the backward scans stop, and the multiplying chain of
    sequential repliers. */
module ReturningEventLemmas {
  import opened Outcomes
  import opened Futures
  import opened ReturningEvents

  /** The aggregate holds the exception of every failed entry and nothing else. */
  lemma {:induction false} FailuresExact<V>(es: seq<Entry<V>>, e: ErrorId)
    ensures e in Failures(es) <==> exists i :: 0 <= i < |es| && es[i].task == Failed(e)
  {
    if es != [] {
      var pre := es[..|es| - 1];
      FailuresExact(pre, e);
      if exists i :: 0 <= i < |pre| && pre[i].task == Failed(e) {
        var i :| 0 <= i < |pre| && pre[i].task == Failed(e);
        assert es[i].task == Failed(e);
      }
      if exists i :: 0 <= i < |es| && es[i].task == Failed(e) {
        var i :| 0 <= i < |es| && es[i].task == Failed(e);
        if i < |pre| {
          assert pre[i].task == Failed(e);
        }
      }
    }
  }

  /** No entry failed exactly when the aggregate would be empty. */
  lemma NoFailuresIff<V>(es: seq<Entry<V>>)
    ensures Failures(es) == [] <==> forall i :: 0 <= i < |es| ==> !es[i].task.Failed?
  {
    if Failures(es) != [] {
      FailuresExact(es, Failures(es)[0]);
    } else {
      forall i | 0 <= i < |es|
        ensures !es[i].task.Failed?
      {
        if es[i].task.Failed? {
          FailuresExact(es, es[i].task.error);
        }
      }
    }
  }

  /** One failed entry among any number: the aggregate holds exactly its exception. */
  lemma {:induction false} SingleFailure<V>(es: seq<Entry<V>>, k: nat)
    requires k < |es| && es[k].task.Failed?
    requires forall j :: 0 <= j < |es| && j != k ==> !es[j].task.Failed?
    ensures Failures(es) == [es[k].task.error]
  {
    var pre := es[..|es| - 1];
    if k == |es| - 1 {
      NoFailuresIff(pre);
    } else {
      SingleFailure(pre, k);
    }
  }

  /** `is_replied` returns true exactly when the flag is set and every task
      finished with a result; it raises (the same way) whatever the flag. */
  lemma IsRepliedIff<V>(es: seq<Entry<V>>, emitCompleted: bool)
    ensures IsRepliedSpec(es, emitCompleted) == Ok(true) <==>
              emitCompleted && forall i :: 0 <= i < |es| ==> es[i].task.Done?
    ensures IsRepliedSpec(es, emitCompleted).Raise? ==>
              IsRepliedSpec(es, emitCompleted) == IsRepliedSpec(es, !emitCompleted)
  {
    NoFailuresIff(es);
  }

  /** When `is_replied` raises the aggregate, it holds the exception of every
      failed entry, and no entry was cancelled. */
  lemma AggregateCollectsEveryFailure<V>(es: seq<Entry<V>>, emitCompleted: bool, errs: seq<ErrorId>)
    requires IsRepliedSpec(es, emitCompleted) == Raise(Aggregate(errs))
    ensures NoneCancelled(es) && errs != []
    ensures forall i :: 0 <= i < |es| && es[i].task.Failed? ==> es[i].task.error in errs
  {
    forall i | 0 <= i < |es| && es[i].task.Failed?
      ensures es[i].task.error in errs
    {
      FailuresExact(es, es[i].task.error);
    }
  }

  /** When every task finished with a result, `get_reply` returns every
      component with its result, in insertion order. */
  lemma {:induction false} AllResults<V>(es: seq<Entry<V>>)
    requires forall i :: 0 <= i < |es| ==> es[i].task.Done?
    ensures FirstHalt(es).None? && Failures(es) == []
    ensures |Results(es)| == |es|
    ensures forall i :: 0 <= i < |es| ==> Results(es)[i] == (es[i].component, es[i].task.value)
  {
    if es != [] {
      AllResults(es[..|es| - 1]);
    }
  }

  /** Once `is_replied` says true, `get_reply` returns exactly the
      components that replied, mapped to their results, in reply order. */
  lemma RepliedThenGetReply<V>(es: seq<Entry<V>>, emitCompleted: bool)
    requires IsRepliedSpec(es, emitCompleted) == Ok(true)
    ensures GetReplySpec(es).Ok?
    ensures |GetReplySpec(es).value| == |es|
    ensures forall i :: 0 <= i < |es| ==>
              es[i].task.Done? && GetReplySpec(es).value[i] == (es[i].component, es[i].task.value)
  {
    IsRepliedIff(es, emitCompleted);
    AllResults(es);
  }

  /** A prefix on which no entry stops `get_reply` does not stop it. */
  lemma {:induction false} NoHaltInPrefix<V>(es: seq<Entry<V>>, k: nat)
    requires k <= |es|
    requires forall j :: 0 <= j < k ==> Halt(es[j].task).None?
    ensures FirstHalt(es[..k]).None?
  {
    if k > 0 {
      assert es[..k][..k - 1] == es[..k - 1];
      NoHaltInPrefix(es, k - 1);
    }
  }

  /** `get_reply` raises at the first entry, in registry order, that is
      unfinished (`RuntimeError`) or cancelled (`CancelledError`). */
  lemma GetReplyStopsAtFirstHalt<V>(es: seq<Entry<V>>, k: nat)
    requires k < |es| && Halt(es[k].task).Some?
    requires forall j :: 0 <= j < k ==> Halt(es[j].task).None?
    ensures GetReplySpec(es) == Raise(Halt(es[k].task).value)
    ensures es[k].task.Pending? || es[k].task.Running? ==>
              GetReplySpec(es) == Raise(RuntimeError(ReplyNotFinished))
  {
    NoHaltInPrefix(es, k);
    assert es[..k + 1][..k] == es[..k];
    FirstHaltStops(es, k + 1);
  }

  // ---------------------------------------------------------------------
  // Backward scans of the sequential event.
  // ---------------------------------------------------------------------

  /** The first replier never sees a predecessor: it gets the default. */
  lemma FirstReplierGetsDefault<V>(es: seq<Entry<V>>, d: V)
    requires |es| > 0 && DistinctKeys(es)
    ensures PreviousReplyReady(es, Some(es[0].component))
    ensures PreviousReplySpec(es, Some(es[0].component), d) == Ok(d)
  {
    assert Keys(es)[0] == es[0].component;
    assert IndexOf(es, es[0].component) == 0;
  }

  /** A component without an entry (or `None`) scans as if it had just been
      appended at the end of the chain. */
  lemma UnregisteredScansFromEnd<V>(es: seq<Entry<V>>, c: ComponentId, t: Task<V>, d: V)
    requires c !in Keys(es)
    requires PreviousReplyReady(es, None)
    ensures PreviousReplyReady(es + [Entry(c, t)], Some(c))
    ensures PreviousReplySpec(es + [Entry(c, t)], Some(c), d) == PreviousReplySpec(es, None, d)
    ensures PreviousReplySpec(es, Some(c), d) == PreviousReplySpec(es, None, d)
  {
    var es' := es + [Entry(c, t)];
    assert Keys(es')[|es|] == c;
    var k := IndexOf(es', c);
    if k < |es| {
      assert false;
    }
    assert StartIndex(es', Some(c)) == |es| - 1;
    ScanDownPrefix(es, es', |es| - 1, 0, Uncancelled);
  }

  /** A backward scan that starts inside a prefix sees only the prefix. */
  lemma {:induction false} ScanDownPrefix<V>(es: seq<Entry<V>>, es': seq<Entry<V>>, i: int, lo: nat, p: Probe)
    requires i < |es| <= |es'| && es == es'[..|es|]
    ensures ScanDown(es, i, lo, p) == ScanDown(es', i, lo, p)
    decreases i + 1 - lo
  {
    if i >= lo && !Accepts(p, es[i].task) {
      ScanDownPrefix(es, es', i - 1, lo, p);
    }
  }

  /** `previous_entry` stops its scan at index 1, so with two finished
      replies the second one is told there is no predecessor, while
      `previous_reply` gives it the first one's result. */
  lemma PreviousEntryNeverSeesFirst<V>(a: ComponentId, b: ComponentId, va: V, vb: V, d: V)
    requires a != b
    ensures PreviousEntrySpec([Entry(a, Done(va)), Entry(b, Done(vb))], Some(b), d) == DefaultEntry(d)
    ensures PreviousReplyReady([Entry(a, Done(va)), Entry(b, Done(vb))], Some(b))
    ensures PreviousReplySpec([Entry(a, Done(va)), Entry(b, Done(vb))], Some(b), d) == Ok(va)
  {
    var es := [Entry(a, Done(va)), Entry(b, Done(vb))];
    assert Keys(es)[1] == b;
    assert IndexOf(es, b) == 1;
  }

  /** Whatever `previous_entry` finds is never the first entry. */
  lemma PreviousEntrySkipsIndexZero<V>(es: seq<Entry<V>>, c: Option<ComponentId>, d: V)
    requires DistinctKeys(es) && |es| > 0
    ensures PreviousEntrySpec(es, c, d).FoundEntry? ==>
              PreviousEntrySpec(es, c, d).entry.component != es[0].component
  {
  }

  /** `get_resolved_reply` reports the newest entry that is done and not
      cancelled, and every newer entry is still unfinished or cancelled. */
  lemma ResolvedIsNewest<V>(es: seq<Entry<V>>, d: V, c: ComponentId, v: V)
    requires ResolvedReplySpec(es, d) == Ok(ResolvedReply(c, v))
    ensures exists k :: 0 <= k < |es| && es[k] == Entry(c, Done(v)) &&
              forall j :: k < j < |es| ==> !es[j].task.Done? && !es[j].task.Failed?
  {
    var k := ScanDown(es, |es| - 1, 0, Resolved).value;
    assert es[k] == Entry(c, Done(v));
  }

  /** With no entry done and uncancelled, `get_resolved_reply` returns its default. */
  lemma NothingResolvedGivesDefault<V>(es: seq<Entry<V>>, d: V)
    requires forall i :: 0 <= i < |es| ==> es[i].task.Pending? || es[i].task.Running? || es[i].task.Cancelled?
    ensures ResolvedReplySpec(es, d) == Ok(NoResolvedReply(d))
  {
    var r := ScanDown(es, |es| - 1, 0, Resolved);
  }

  // ---------------------------------------------------------------------
  // The multiplying chain of sequential repliers.
  // ---------------------------------------------------------------------

  function Product(ks: seq<int>): int
  {
    if ks == [] then 1 else Product(ks[..|ks| - 1]) * ks[|ks| - 1]
  }

  /** The registry left by repliers 0..n-1 processed in order, replier `i`
      multiplying by `ks[i]`: each one, once its own entry is in place,
      asks `previous_reply(self)` (default `None`, read as 1) and finishes
      with that value times its multiplier. */
  function MultiplierChain(ks: seq<int>): (es: seq<Entry<Option<int>>>)
    ensures |es| == |ks|
    ensures forall i :: 0 <= i < |es| ==> es[i].component == i && es[i].task.Done?
    decreases |ks|
  {
    if ks == [] then []
    else
      var prior := MultiplierChain(ks[..|ks| - 1]);
      var me := |ks| - 1;
      var registry := prior + [Entry(me, Running)];
      assert Keys(registry)[me] == me;
      assert IndexOf(registry, me) == me;
      var p := PreviousReplySpec(registry, Some(me), None);
      assert p.Ok?;
      prior + [Entry(me, Done(Some((if p.value.None? then 1 else p.value.value) * ks[me])))]
  }

  /** Each replier of the chain finishes with the product of the
      multipliers up to and including its own. */
  lemma {:induction false} ChainHoldsRunningProduct(ks: seq<int>)
    requires ks != []
    ensures MultiplierChain(ks)[|ks| - 1].task == Done(Some(Product(ks)))
    decreases |ks|
  {
    var prior := MultiplierChain(ks[..|ks| - 1]);
    var me := |ks| - 1;
    var registry := prior + [Entry(me, Running)];
    assert Keys(registry)[me] == me;
    assert IndexOf(registry, me) == me;
    if me > 0 {
      ChainHoldsRunningProduct(ks[..me]);
      assert ks[..me][..me - 1] == ks[..me - 1];
      PreviousOfNewest(prior, None);
    }
  }

  /** A replier appended after entries numbered 0.. in order, the newest of
      them finished, gets that newest entry's result from `previous_reply`. */
  lemma PreviousOfNewest<V>(prior: seq<Entry<V>>, d: V)
    requires |prior| > 0 && prior[|prior| - 1].task.Done?
    requires forall i :: 0 <= i < |prior| ==> prior[i].component == i
    ensures var registry := prior + [Entry(|prior|, Running)];
      && PreviousReplyReady(registry, Some(|prior|))
      && PreviousReplySpec(registry, Some(|prior|), d) == Ok(prior[|prior| - 1].task.value)
  {
    var me := |prior|;
    var registry := prior + [Entry(me, Running)];
    assert Keys(registry)[me] == me;
    assert IndexOf(registry, me) == me;
    assert ScanDown(registry, me - 1, 0, Uncancelled) == Some(me - 1);
  }

  /** After every replier finished, `previous_reply(None)` gives the product
      of all multipliers; 2, 3, 4, 5 give 120. */
  lemma ChainEndsWithProduct(ks: seq<int>)
    requires ks != []
    ensures PreviousReplyReady(MultiplierChain(ks), None)
    ensures PreviousReplySpec(MultiplierChain(ks), None, None) == Ok(Some(Product(ks)))
  {
    ChainHoldsRunningProduct(ks);
  }

  lemma MultiplyingExample()
    ensures PreviousReplyReady(MultiplierChain([2, 3, 4, 5]), None)
    ensures PreviousReplySpec(MultiplierChain([2, 3, 4, 5]), None, None) == Ok(Some(120))
  {
    ChainEndsWithProduct([2, 3, 4, 5]);
    assert [2, 3, 4, 5][..3] == [2, 3, 4];
    assert [2, 3, 4][..2] == [2, 3];
    assert [2, 3][..1] == [2];
    assert [2][..0] == [];
  }
}

=== FILE: returning_events.dfy ===
/** Returning events (reactor/returningevent.py): events that carry a registry
    of reply tasks, one per replying component, and the operations that add
    to it and read it back. A registry is an insertion-ordered list of
    (component, task snapshot) entries; a blocking wait becomes the
    precondition that the tasks it would wait for have finished. */
module ReturningEvents {
  import opened Outcomes
  import opened Futures
  import opened Events

  /** One registry entry: the replying component and its task. */
  datatype Entry<V> = Entry(component: ComponentId, task: Task<V>)

  /** The registry's keys, in insertion order. */
  function Keys<V>(es: seq<Entry<V>>): (ks: seq<ComponentId>)
    ensures |ks| == |es|
    ensures forall i :: 0 <= i < |es| ==> ks[i] == es[i].component
  {
    seq(|es|, i requires 0 <= i < |es| => es[i].component)
  }

  /** A dictionary holds each key once. */
  ghost predicate DistinctKeys<V>(es: seq<Entry<V>>) {
    forall i, j :: 0 <= i < j < |es| ==> es[i].component != es[j].component
  }

  /** `list(keys).index(c)`: the position of the first entry of `c`. */
  function IndexOf<V>(es: seq<Entry<V>>, c: ComponentId): (k: nat)
    requires c in Keys(es)
    ensures k < |es| && es[k].component == c
    ensures forall j :: 0 <= j < k ==> es[j].component != c
    decreases |es|
  {
    if es[0].component == c then 0
    else
      assert c in Keys(es[1..]) by {
        var i :| 0 <= i < |es| && Keys(es)[i] == c;
        assert Keys(es[1..])[i - 1] == c;
      }
      1 + IndexOf(es[1..], c)
  }

  predicate AllDone<V>(es: seq<Entry<V>>) {
    forall i :: 0 <= i < |es| ==> es[i].task.IsDone()
  }

  predicate NoneCancelled<V>(es: seq<Entry<V>>) {
    forall i :: 0 <= i < |es| ==> !es[i].task.Cancelled?
  }

  /** The exceptions of the entries that finished with one, in registry order. */
  function Failures<V>(es: seq<Entry<V>>): seq<ErrorId>
  {
    if es == [] then []
    else
      var last := es[|es| - 1].task;
      Failures(es[..|es| - 1]) + (if last.Failed? then [last.error] else [])
  }

  /** What `is_replied` returns or raises. Every entry is inspected:
      a cancelled one raises `CancelledError` (its `exception()` does);
      otherwise any failures are raised together; otherwise the answer is
      "the flag is set and every task is done". */
  function IsRepliedSpec<V>(es: seq<Entry<V>>, emitCompleted: bool): Outcome<bool>
  {
    if !NoneCancelled(es) then Raise(CancelledError)
    else if Failures(es) != [] then Raise(Aggregate(Failures(es)))
    else Ok(emitCompleted && AllDone(es))
  }

  /** The exception `get_reply` raises on reaching the entry with task `t`,
      if it stops there. */
  function Halt<V>(t: Task<V>): Option<Raised>
  {
    match t
    case Pending => Some(RuntimeError(ReplyNotFinished))
    case Running => Some(RuntimeError(ReplyNotFinished))
    case Cancelled => Some(CancelledError)
    case _ => None
  }

  /** The first entry, in registry order, where `get_reply` stops. */
  function FirstHalt<V>(es: seq<Entry<V>>): Option<Raised>
  {
    if es == [] then None
    else
      var before := FirstHalt(es[..|es| - 1]);
      if before.Some? then before else Halt(es[|es| - 1].task)
  }

  /** The component -> result pairs of the entries done with a result. */
  function Results<V>(es: seq<Entry<V>>): seq<(ComponentId, V)>
  {
    if es == [] then []
    else
      var last := es[|es| - 1];
      Results(es[..|es| - 1]) + (if last.task.Done? then [(last.component, last.task.value)] else [])
  }

  /** What `get_reply` returns or raises. */
  function GetReplySpec<V>(es: seq<Entry<V>>): Outcome<seq<(ComponentId, V)>>
  {
    if FirstHalt(es).Some? then Raise(FirstHalt(es).value)
    else if Failures(es) != [] then Raise(Aggregate(Failures(es)))
    else Ok(Results(es))
  }

  /** Which entries a backward scan stops at: `not cancelled()` for
      `previous_reply`/`previous_entry`, `done() and not cancelled()` for
      `get_resolved_reply`. */
  datatype Probe = Uncancelled | Resolved

  predicate Accepts<V>(p: Probe, t: Task<V>) {
    match p
    case Uncancelled => !t.Cancelled?
    case Resolved => t.Done? || t.Failed?
  }

  /** The first index from `i` down to `lo` whose task the probe accepts. */
  function ScanDown<V>(es: seq<Entry<V>>, i: int, lo: nat, p: Probe): (r: Option<nat>)
    requires i < |es|
    ensures r.Some? ==> lo <= r.value <= i && Accepts(p, es[r.value].task)
    ensures r.Some? ==> forall j :: r.value < j <= i ==> !Accepts(p, es[j].task)
    ensures r.None? ==> forall j :: lo <= j <= i ==> !Accepts(p, es[j].task)
    decreases i + 1 - lo
  {
    if i < lo then None
    else if Accepts(p, es[i].task) then Some(i)
    else ScanDown(es, i - 1, lo, p)
  }

  /** Where a backward scan on behalf of `c` starts: just before `c`'s own
      entry, or at the last entry when `c` (possibly `None`) has no entry. */
  function StartIndex<V>(es: seq<Entry<V>>, c: Option<ComponentId>): (i: int)
    ensures -1 <= i < |es|
  {
    if c.Some? && c.value in Keys(es) then IndexOf(es, c.value) - 1 else |es| - 1
  }

  /** A registered component's scan starts at the entry just before its own. */
  lemma StartIndexOfRegistered<V>(es: seq<Entry<V>>, k: nat)
    requires DistinctKeys(es) && k < |es|
    ensures StartIndex(es, Some(es[k].component)) == k - 1
  {
    var c := es[k].component;
    assert Keys(es)[k] == c;
    var j := IndexOf(es, c);
    assert es[j].component == c;
    if j != k {
      assert false;
    }
  }

  /** `previous_reply` blocks on the entry it finds: the model asks that the
      entry be finished. */
  predicate PreviousReplyReady<V>(es: seq<Entry<V>>, c: Option<ComponentId>) {
    var k := ScanDown(es, StartIndex(es, c), 0, Uncancelled);
    k.None? || es[k.value].task.IsDone()
  }

  /** What `previous_reply(c, d)` returns or raises. */
  function PreviousReplySpec<V>(es: seq<Entry<V>>, c: Option<ComponentId>, d: V): Outcome<V>
    requires PreviousReplyReady(es, c)
  {
    if |es| == 0 then Ok(d)
    else
      match ScanDown(es, StartIndex(es, c), 0, Uncancelled)
      case None => Ok(d)
      case Some(k) => es[k].task.Result()
  }

  /** The second half of what `previous_entry` returns: the default, or the
      (component, future) pair it found. */
  datatype EntryOr<V> = DefaultEntry(default: V) | FoundEntry(entry: Entry<V>)

  /** `previous_entry` scans with `range(index, 0, -1)`, which stops at 1. */
  function PreviousEntrySpec<V>(es: seq<Entry<V>>, c: Option<ComponentId>, d: V): EntryOr<V>
  {
    match ScanDown(es, StartIndex(es, c), 1, Uncancelled)
    case None => DefaultEntry(d)
    case Some(k) => FoundEntry(es[k])
  }

  /** What `get_resolved_reply` returns when it does not raise. */
  datatype Resolution<V> = ResolvedReply(component: ComponentId, value: V) | NoResolvedReply(default: V)

  /** What `get_resolved_reply(d)` returns or raises: the newest entry that
      is done and not cancelled decides. */
  function ResolvedReplySpec<V>(es: seq<Entry<V>>, d: V): Outcome<Resolution<V>>
  {
    match ScanDown(es, |es| - 1, 0, Resolved)
    case None => Ok(NoResolvedReply(d))
    case Some(k) =>
      if es[k].task.Done? then Ok(ResolvedReply(es[k].component, es[k].task.value))
      else Raise(TaskError(es[k].task.error))
  }

  // ---------------------------------------------------------------------
  // The loops of the source, each proved against its specification.
  // ---------------------------------------------------------------------

  /** The loop of `is_replied`, shared by both kinds of returning event. */
  method CheckReplied<V>(es: seq<Entry<V>>, emitCompleted: bool) returns (r: Outcome<bool>)
    ensures r == IsRepliedSpec(es, emitCompleted)
  {
    var failures: seq<ErrorId> := [];
    var areDone := true;
    var i := 0;
    while i < |es|
      invariant 0 <= i <= |es|
      invariant NoneCancelled(es[..i])
      invariant failures == Failures(es[..i])
      invariant areDone == AllDone(es[..i])
    {
      var t := es[i].task;
      assert es[..i + 1][..i] == es[..i];
      if t.IsDone() {
        var ex := t.Exception();
        if ex.Raise? {
          return Raise(ex.error);
        }
        if ex.value.Some? {
          failures := failures + [ex.value.value];
        }
      } else {
        areDone := false;
      }
      i := i + 1;
    }
    assert es[..i] == es;
    if |failures| > 0 {
      r := Raise(Aggregate(failures));
    } else if emitCompleted && areDone {
      r := Ok(true);
    } else {
      r := Ok(false);
    }
  }

  /** The loop of `get_reply`. */
  method CollectReplies<V>(es: seq<Entry<V>>) returns (r: Outcome<seq<(ComponentId, V)>>)
    ensures r == GetReplySpec(es)
  {
    var ret: seq<(ComponentId, V)> := [];
    var failures: seq<ErrorId> := [];
    var i := 0;
    while i < |es|
      invariant 0 <= i <= |es|
      invariant FirstHalt(es[..i]).None?
      invariant failures == Failures(es[..i])
      invariant ret == Results(es[..i])
    {
      var t := es[i].task;
      assert es[..i + 1][..i] == es[..i];
      if t.IsDone() {
        var ex := t.Exception();
        if ex.Raise? {
          FirstHaltStops(es, i + 1);
          return Raise(ex.error);
        }
        if ex.value.Some? {
          failures := failures + [ex.value.value];
        } else if !t.Cancelled? {
          ret := ret + [(es[i].component, t.value)];
        }
      } else {
        FirstHaltStops(es, i + 1);
        return Raise(RuntimeError(ReplyNotFinished));
      }
      i := i + 1;
    }
    assert es[..i] == es;
    if |failures| > 0 {
      r := Raise(Aggregate(failures));
    } else {
      r := Ok(ret);
    }
  }

  /** Once a prefix has stopped `get_reply`, the whole registry stops there. */
  lemma {:induction false} FirstHaltStops<V>(es: seq<Entry<V>>, k: nat)
    requires k <= |es| && FirstHalt(es[..k]).Some?
    ensures FirstHalt(es) == FirstHalt(es[..k])
    decreases |es| - k
  {
    if k < |es| {
      assert es[..k + 1][..k] == es[..k];
      FirstHaltStops(es, k + 1);
    } else {
      assert es[..k] == es;
    }
  }

  /** The index-walking loop of `previous_reply`. */
  method PreviousReplyScan<V>(es: seq<Entry<V>>, c: Option<ComponentId>, d: V) returns (r: Outcome<V>)
    requires PreviousReplyReady(es, c)
    ensures r == PreviousReplySpec(es, c, d)
  {
    r := Ok(d);
    if |es| > 0 {
      var index := StartIndex(es, c);
      var i := index;
      while i >= 0
        invariant -1 <= i <= index
        invariant ScanDown(es, index, 0, Uncancelled) == ScanDown(es, i, 0, Uncancelled)
      {
        if !es[i].task.Cancelled? {
          r := es[i].task.Result();
          return;
        }
        i := i - 1;
      }
    }
  }

  /** The index-walking loop of `previous_entry`; the first half of the
      pair it returns is always `None`. */
  method PreviousEntryScan<V>(es: seq<Entry<V>>, c: Option<ComponentId>, d: V)
    returns (first: Option<ComponentId>, second: EntryOr<V>)
    ensures first == None && second == PreviousEntrySpec(es, c, d)
  {
    second := DefaultEntry(d);
    if |es| > 0 {
      var index := StartIndex(es, c);
      var i := index;
      while i > 0
        invariant 0 <= i <= index || i == index == -1
        invariant ScanDown(es, index, 1, Uncancelled) == ScanDown(es, i, 1, Uncancelled)
      {
        if !es[i].task.Cancelled? {
          second := FoundEntry(es[i]);
          break;
        }
        i := i - 1;
      }
    }
    first := None;
  }

  /** The newest-to-oldest loop of `get_resolved_reply`. */
  method ResolvedReplyScan<V>(es: seq<Entry<V>>, d: V) returns (r: Outcome<Resolution<V>>)
    ensures r == ResolvedReplySpec(es, d)
  {
    var i := |es| - 1;
    while i >= 0
      invariant -1 <= i < |es|
      invariant ScanDown(es, |es| - 1, 0, Resolved) == ScanDown(es, i, 0, Resolved)
    {
      var t := es[i].task;
      if t.IsDone() && !t.Cancelled? {
        var ex := t.Exception();
        if ex.Ok? && ex.value.Some? {
          return Raise(TaskError(ex.value.value));
        }
        var v := t.Result();
        return Ok(ResolvedReply(es[i].component, v.value));
      }
      i := i - 1;
    }
    r := Ok(NoResolvedReply(d));
  }

  // ---------------------------------------------------------------------
  // The two kinds of returning event.
  // ---------------------------------------------------------------------

  /** `ParallelReturningEvent`: replies are independent and collected as a
      component -> result mapping. */
  class ParallelReturningEvent<V> {
    const signal: EmittedFlag
    var replies: seq<Entry<V>>

    ghost predicate Valid()
      reads this
    {
      DistinctKeys(replies)
    }

    constructor (source: Option<ComponentId>)
      ensures Valid() && fresh(signal)
      ensures signal.source == source && !signal.emitCompleted && replies == []
    {
      signal := new EmittedFlag(source);
      replies := [];
    }

    method OnEmitCompleted()
      modifies signal
      ensures signal.emitCompleted
    {
      signal.OnEmitCompleted();
    }

    /** `reply`: a second reply from the same component raises and changes
        nothing; otherwise exactly one entry is added at the end. Replying
        after the flag is set is allowed. */
    method Reply(c: ComponentId, t: Task<V>) returns (raised: Option<Raised>)
      requires Valid()
      modifies this
      ensures Valid()
      ensures c in Keys(old(replies)) ==>
                raised == Some(RuntimeError(DuplicateReply)) && replies == old(replies)
      ensures c !in Keys(old(replies)) ==>
                raised == None && replies == old(replies) + [Entry(c, t)]
    {
      if c in Keys(replies) {
        raised := Some(RuntimeError(DuplicateReply));
      } else {
        replies := replies + [Entry(c, t)];
        raised := None;
      }
    }

    method IsReplied() returns (r: Outcome<bool>)
      ensures r == IsRepliedSpec(replies, signal.emitCompleted)
    {
      r := CheckReplied(replies, signal.emitCompleted);
    }

    method GetReply() returns (r: Outcome<seq<(ComponentId, V)>>)
      ensures r == GetReplySpec(replies)
    {
      r := CollectReplies(replies);
    }
  }

  /** The `future` argument of a sequential `reply`: the code checks that it
      really is a `Future`. */
  datatype ReplyArg<V> = FutureArg(task: Task<V>) | NotAFuture

  /** `SequentialReturningEvent`: replies form a chain in insertion order,
      and each replier looks back only at the entries before its own. */
  class SequentialReturningEvent<V> {
    const signal: EmittedFlag
    var replies: seq<Entry<V>>

    ghost predicate Valid()
      reads this
    {
      DistinctKeys(replies)
    }

    constructor (source: Option<ComponentId>)
      ensures Valid() && fresh(signal)
      ensures signal.source == source && !signal.emitCompleted && replies == []
    {
      signal := new EmittedFlag(source);
      replies := [];
    }

    method OnEmitCompleted()
      modifies signal
      ensures signal.emitCompleted
    {
      signal.OnEmitCompleted();
    }

    /** `reply`: checks, in this order, that the argument is a future, that
        the flag is not set and that the component has not replied. On
        success the last entry is asked to cancel when it is running, which
        a running future ignores, and the new entry is appended. */
    method Reply(c: ComponentId, arg: ReplyArg<V>) returns (raised: Option<Raised>)
      requires Valid()
      modifies this
      ensures Valid()
      ensures arg.NotAFuture? ==> raised == Some(TypeError) && replies == old(replies)
      ensures arg.FutureArg? && signal.emitCompleted ==>
                raised == Some(RuntimeError(ReplyAfterEmit)) && replies == old(replies)
      ensures arg.FutureArg? && !signal.emitCompleted && c in Keys(old(replies)) ==>
                raised == Some(RuntimeError(DuplicateReply)) && replies == old(replies)
      ensures arg.FutureArg? && !signal.emitCompleted && c !in Keys(old(replies)) ==>
                raised == None && replies == old(replies) + [Entry(c, arg.task)]
    {
      if arg.NotAFuture? {
        return Some(TypeError);
      }
      if signal.emitCompleted {
        raised := Some(RuntimeError(ReplyAfterEmit));
      } else if c in Keys(replies) {
        raised := Some(RuntimeError(DuplicateReply));
      } else {
        var n := |replies|;
        if n >= 1 && replies[n - 1].task.Running? {
          replies := replies[..n - 1] + [Entry(replies[n - 1].component, replies[n - 1].task.Cancel())];
        }
        replies := replies + [Entry(c, arg.task)];
        raised := None;
      }
    }

    method IsReplied() returns (r: Outcome<bool>)
      ensures r == IsRepliedSpec(replies, signal.emitCompleted)
    {
      r := CheckReplied(replies, signal.emitCompleted);
    }

    method GetResolvedReply(d: V) returns (r: Outcome<Resolution<V>>)
      ensures r == ResolvedReplySpec(replies, d)
    {
      r := ResolvedReplyScan(replies, d);
    }

    method PreviousEntry(c: Option<ComponentId>, d: V) returns (first: Option<ComponentId>, second: EntryOr<V>)
      ensures first == None && second == PreviousEntrySpec(replies, c, d)
    {
      first, second := PreviousEntryScan(replies, c, d);
    }

    method PreviousReply(c: Option<ComponentId>, d: V) returns (r: Outcome<V>)
      requires Valid() && PreviousReplyReady(replies, c)
      ensures r == PreviousReplySpec(replies, c, d)
      ensures forall k :: 0 <= k < |replies| && c == Some(replies[k].component) ==>
                r == match ScanDown(replies, k - 1, 0, Uncancelled)
                     case None => Ok(d)
                     case Some(j) => replies[j].task.Result()
    {
      r := PreviousReplyScan(replies, c, d);
      forall k | 0 <= k < |replies| && c == Some(replies[k].component) {
        StartIndexOfRegistered(replies, k);
      }
    }
  }
}

=== FILE: simple_reactor.dfy ===
/** The reactor of reactor/simplereactor.py: three well-known singleton
    components, and an `emit` that may first let components rewrite the
    event through a `TransformEvent`. Only the two-argument `emit` is
    modelled: Python keeps the later of the two definitions. */
module Reactors {
  import opened Outcomes
  import opened Futures
  import opened Events
  import opened ReturningEvents
  import opened Components
  import opened Injection
  import opened Transformation

  /** `emit(event, transformation_mode)`, given the component list, the
      transformation distributor, the identity of the fresh
      `TransformEvent`, and that event's reply registry once every reply
      has finished (mode 2 waits for them). Mode 0 broadcasts the event;
      mode 2 first broadcasts and completes the `TransformEvent` and then
      broadcasts its `previous_reply(None)`; mode 1 hands the
      `TransformEvent` to the transformation distributor alone and then
      waits on a flag nobody sets; any other mode raises `ValueError`. */
  function EmitSpec(cs: seq<ComponentId>, td: ComponentId, p: Payload, mode: int,
                    teId: nat, es: seq<Entry<Payload>>): EmitResult
    requires mode == 2 ==> AllDone(es)
  {
    var te := Ev(NewTransformEvent(teId, p));
    if mode == 2 then
      var first := Deliveries(cs, te) + [Complete(te)];
      match PreviousReplySpec(es, None, NoEvent)
      case Raise(e) => EmitResult(first, Raised(e))
      case Ok(q) =>
        var rest := PassResult(cs, q);
        EmitResult(first + rest.trace, rest.ending)
    else if mode == 1 then EmitResult([Deliver(td, te)], Blocked)
    else if mode == 0 then PassResult(cs, p)
    else EmitResult([], Raised(ValueError))
  }

  /** A mode outside 0..2 raises before any component receives anything. */
  lemma EmitRejectsUnknownMode(cs: seq<ComponentId>, td: ComponentId, p: Payload, mode: int,
                               teId: nat, es: seq<Entry<Payload>>)
    requires mode < 0 || mode > 2
    ensures EmitSpec(cs, td, p, mode, teId, es) == EmitResult([], Raised(ValueError))
  {
  }

  /** Mode 0: every component gets the event once, in order, and only then
      is the event completed. */
  lemma EmitWithoutTransformation(cs: seq<ComponentId>, td: ComponentId, p: Payload,
                                  teId: nat, es: seq<Entry<Payload>>)
    requires p.Ev?
    ensures EmitSpec(cs, td, p, 0, teId, es).ending == Returned
    ensures |EmitSpec(cs, td, p, 0, teId, es).trace| == |cs| + 1
    ensures forall i :: 0 <= i < |cs| ==> EmitSpec(cs, td, p, 0, teId, es).trace[i] == Deliver(cs[i], p)
    ensures EmitSpec(cs, td, p, 0, teId, es).trace[|cs|] == Complete(p)
  {
    PassCompletesLast(cs, p);
  }

  /** Mode 1: only the transformation distributor receives the
      `TransformEvent`, which is never completed, so the wait that follows
      never ends and the original event is never broadcast. */
  lemma EmitThroughDistributorOnlyBlocks(cs: seq<ComponentId>, td: ComponentId, p: Payload,
                                         teId: nat, es: seq<Entry<Payload>>)
    ensures EmitSpec(cs, td, p, 1, teId, es).ending == Blocked
    ensures EmitSpec(cs, td, p, 1, teId, es).trace == [Deliver(td, Ev(NewTransformEvent(teId, p)))]
    ensures forall d :: d in EmitSpec(cs, td, p, 1, teId, es).trace ==> d.Deliver? && d.to == td
  {
  }

  /** Mode 2: the `TransformEvent` goes to every component and is completed;
      then the newest uncancelled reply (entry `k`) is broadcast in place of
      the original and completed. */
  lemma EmitBroadcastsNewestTransform(cs: seq<ComponentId>, td: ComponentId, p: Payload,
                                      teId: nat, es: seq<Entry<Payload>>, k: nat)
    requires AllDone(es)
    requires k < |es| && es[k].task.Done? && es[k].task.value.Ev?
    requires forall j :: k < j < |es| ==> es[j].task.Cancelled?
    ensures var te := Ev(NewTransformEvent(teId, p));
            var q := es[k].task.value;
            EmitSpec(cs, td, p, 2, teId, es) ==
              EmitResult(Deliveries(cs, te) + [Complete(te)] + Deliveries(cs, q) + [Complete(q)], Returned)
  {
    var r := ScanDown(es, |es| - 1, 0, Uncancelled);
    assert r == Some(k);
  }

  /** Mode 2 with no uncancelled reply: `None` is broadcast to every
      component, and completing it raises `AttributeError`. */
  lemma EmitWithoutTransformRepliesBroadcastsNone(cs: seq<ComponentId>, td: ComponentId, p: Payload,
                                                  teId: nat, es: seq<Entry<Payload>>)
    requires forall j :: 0 <= j < |es| ==> es[j].task.Cancelled?
    ensures AllDone(es)
    ensures var te := Ev(NewTransformEvent(teId, p));
            EmitSpec(cs, td, p, 2, teId, es) ==
              EmitResult(Deliveries(cs, te) + [Complete(te)] + Deliveries(cs, NoEvent), Raised(AttributeError))
  {
    var r := ScanDown(es, |es| - 1, 0, Uncancelled);
    assert r.None?;
  }

  /** `SimpleReactor` of reactor/simplereactor.py. */
  class SimpleReactor {
    var components: seq<ComponentId>
    const injectionDispatcher: InjectionDispatcher
    const injectionDispatcherId: ComponentId
    const factoryDistributorId: ComponentId
    const transformationDistributorId: ComponentId

    /** The three singletons are the first components, in this order, and
        all three are registered as injectables. */
    constructor (dispatcher: Injectable, factory: Injectable, transformation: Injectable)
      ensures components == [dispatcher.ref, factory.ref, transformation.ref]
      ensures injectionDispatcherId == dispatcher.ref && factoryDistributorId == factory.ref
      ensures transformationDistributorId == transformation.ref
      ensures fresh(injectionDispatcher)
      ensures injectionDispatcher.injectables == {dispatcher, factory, transformation}
    {
      injectionDispatcherId := dispatcher.ref;
      factoryDistributorId := factory.ref;
      transformationDistributorId := transformation.ref;
      var d := new InjectionDispatcher();
      d.AddInjectable(dispatcher);
      d.AddInjectable(factory);
      d.AddInjectable(transformation);
      injectionDispatcher := d;
      components := [dispatcher.ref, factory.ref, transformation.ref];
    }

    method AddComponent(c: ComponentId)
      modifies this
      ensures components == old(components) + [c]
    {
      components := components + [c];
    }

    method Emit(p: Payload, mode: int, teId: nat, es: seq<Entry<Payload>>) returns (r: EmitResult)
      requires mode == 2 ==> AllDone(es)
      ensures r == EmitSpec(components, transformationDistributorId, p, mode, teId, es)
    {
      if mode == 2 {
        var te := Ev(NewTransformEvent(teId, p));
        var first := Broadcast(components, te);
        first := first + [Complete(te)];
        var prev := PreviousReplyScan(es, None, NoEvent);
        if prev.Raise? {
          return EmitResult(first, Raised(prev.error));
        }
        var rest := RunPass(components, prev.value);
        r := EmitResult(first + rest.trace, rest.ending);
      } else if mode == 1 {
        var te := Ev(NewTransformEvent(teId, p));
        r := EmitResult([Deliver(transformationDistributorId, te)], Blocked);
      } else if mode == 0 {
        r := RunPass(components, p);
      } else {
        r := EmitResult([], Raised(ValueError));
      }
    }
  }
}

=== FILE: transformation.dfy ===
/** The transformation pipeline (reactor/transformation.py): a
    `TransformEvent` wraps the event to be rewritten, and the
    transformation distributor forwards such events, and only those, to
    its own components. */
module Transformation {
  import opened Outcomes
  import opened Events
  import Components

  /** The name the distributor is registered under unless another is given. */
  const DefaultInjectableName: string := "factory_distributor"

  /** `TransformEvent(None, event)`: it stores the wrapped event and has no
      mapped-distributor key. */
  function NewTransformEvent(id: nat, wrapped: Payload): (e: EventRef)
    ensures e.id == id && e.kind == TransformKind(wrapped) && e.mappedKey.None?
  {
    EventRef(id, TransformKind(wrapped), None)
  }

  /** `isinstance(event, TransformEvent)`. */
  predicate IsTransformEvent(p: Payload) {
    p.Ev? && p.event.kind.TransformKind?
  }

  /** `TransformationDistributor`. */
  class TransformationDistributor {
    const id: ComponentId
    const injectableName: string
    var components: seq<ComponentId>

    constructor (id: ComponentId, injectableName: string := DefaultInjectableName)
      ensures this.id == id && this.injectableName == injectableName && components == []
    {
      this.id := id;
      this.injectableName := injectableName;
      components := [];
    }

    method AddComponent(c: ComponentId)
      modifies this
      ensures components == old(components) + [c]
    {
      components := components + [c];
    }

    predicate MustHandleEvent(p: Payload) {
      IsTransformEvent(p)
    }

    function GetInjectableName(): string {
      injectableName
    }

    /** The inherited `Distributor.on_event`: a transform event goes to every
        component once, in order; any other event goes nowhere. */
    method OnEvent(p: Payload) returns (trace: seq<Delivery>)
      ensures IsTransformEvent(p) ==>
                |trace| == |components| &&
                forall i :: 0 <= i < |components| ==> trace[i] == Deliver(components[i], p)
      ensures !IsTransformEvent(p) ==> trace == []
    {
      if MustHandleEvent(p) {
        trace := Components.Broadcast(components, p);
        Components.DeliveriesExact(components, p);
      } else {
        trace := [];
      }
    }
  }

}
